=== FILE: README.md ===
# Concert Time Machine — a Dafny model of the player core

Concert Time Machine is a single-page web application. It replays historic
concerts as playlists on a music-streaming service. This project models the
logic behind that:

- The browser-side login: authorization code with PKCE, meaning a random
  verifier, its S256 challenge, the authorize URL and the token exchange.
- The top-level component's effect that consumes the redirect's `code`
  exactly once.
- The playback binding (`useSpotifyPlayer`), the concert view's
  `player_state_changed` handler and skip buttons, and the shared player
  context (volume, mute, shuffle, repeat, navigation).
- Catalog enrichment: three search strategies per song, a week-long cache,
  and sequential concerts with pauses.
- The setlist search with its rate-limit pauses, and the builder that turns a
  setlist.fm setlist into a concert.
- Image lookups: artist image, album art, the art cache and batching.

Everything the source does through the outside world is an input of the
model:

- the network, as a function from request to answer;
- local storage and session storage, as a value;
- the clock, `Math.random` draws and SHA-256, as values or functions.

Every call that leaves the page is appended to a log the operations return,
so the contracts can state what is sent, in which order, and how often.
JavaScript truthiness (`if (s)` on a `string | null`) is `Wrappers.Truthy`:
null and `""` are both absent.

Modules follow the source files:

| module | source |
|---|---|
| `Wrappers` | nullable values and truthiness |
| `Types` | `src/types` (Song, Concert) |
| `Text` | the string built-ins the core relies on: `${n}`, `split`, `trim`, the slug regex |
| `Base64` | `btoa` and the url-safe rewrite (RFC 4648, sections 4 and 5) |
| `SpotifyAuth` | `src/utils/spotifyAuth.ts` |
| `App` | `src/App.tsx` |
| `SpotifyPlayer` | `src/hooks/useSpotifyPlayer.ts` |
| `ConcertPlayer` | `src/components/ConcertPlayer.tsx` |
| `PlayerContext` | `src/contexts/PlayerContext.tsx` |
| `SpotifySearch` | `src/utils/spotifySearch.ts` |
| `Enrich` | `src/utils/enrichConcerts.ts` |
| `EnrichedConcerts` | `src/hooks/useEnrichedConcerts.ts` |
| `ConcertBuilder` | `src/utils/concertBuilder.ts` |
| `SpotifyImages` | `src/utils/spotifyImages.ts` |

The central property is `App.AtMostOneTokenRequest`. Take any run of the page
in which every URL carries the same authorization code (or none) and no new
login starts. Such a run may include:

- effect re-runs (React strict mode, re-renders);
- reloads;
- exchanges settling in any order;
- 401 signals.

In every such run at most one token request is sent, and it carries that
code. The proof goes through an invariant, `App.ExchangeGuard`, that every
event keeps (`App.StepKeepsGuard`). The invariant links three things:

- the session-storage marker of the processed code;
- the stored verifier;
- the exchanges still in flight.

## Model

| member | source | states |
|---|---|---|
| Types.Uris | src/components/ConcertPlayer.tsx:31-35 | The play request lists every song's URI, in setlist order, one per song |
| Text.NatToString | src/utils/concertBuilder.ts:36-43 | A song id is the shortest decimal form of its position: digits only, no leading zero |
| Text.ParseNatToString | src/utils/concertBuilder.ts:36-43 | Reading a rendered number back gives the number (round trip) |
| Text.NatToStringInjective | src/utils/concertBuilder.ts:36-43 | Different positions render to different ids |
| Text.Split | src/utils/spotifyImages.ts:70-71 | `split(':')` gives at least one piece; no piece holds the separator; there is one piece exactly when the separator is absent |
| Text.JoinSplit | src/utils/spotifyImages.ts:70-71 | Joining the pieces of a split with the separator gives back the string |
| Text.SplitNoSeparator | src/utils/spotifyImages.ts:70-71 | A string without the separator splits into itself alone |
| Text.SplitAfterPiece | src/utils/spotifyImages.ts:70-71 | A separator-free prefix and the separator become the first piece, followed by the pieces of the rest |
| Text.TrimStart | src/utils/spotifyImages.ts:2-6 | Drops exactly the leading whitespace: the result is a suffix that starts with a non-whitespace character |
| Text.TrimEnd | src/utils/spotifyImages.ts:2-6 | Drops exactly the trailing whitespace: the result is a prefix that ends with a non-whitespace character |
| Text.TrimNonEmpty | src/utils/spotifyImages.ts:2-6 | `trim().length > 0` holds exactly when some character is not whitespace |
| Text.SlugOf | src/utils/concertBuilder.ts:72 | One code point's slug is one or two characters from `[a-z0-9-]`; a code point above U+FFFF gives two dashes |
| Text.Slug | src/utils/concertBuilder.ts:72 | The slug contains only lower-case letters, digits and dashes |
| Text.SlugAscii | src/utils/concertBuilder.ts:72 | On ASCII input the slug has the input's length: capitals are lowered, letters and digits are kept, everything else becomes '-' |
| Text.SlugIdempotent | src/utils/concertBuilder.ts:72 | Slugging a slug changes nothing |
| Text.SlugFixed | src/utils/concertBuilder.ts:72 | A string made only of slug characters is its own slug |
| Base64.Alphabet | src/utils/spotifyAuth.ts:28-35 | The 64-character alphabet: A–Z, a–z, 0–9, then the two variant characters |
| Base64.EncodePadding | src/utils/spotifyAuth.ts:28-35 | Padded output is unpadded output plus 0–2 '='; the unpadded length is ⌈4n/3⌉; every character comes from the alphabet |
| Base64.MapUrlSafe | src/utils/spotifyAuth.ts:28-35 | `+` becomes `-` and `/` becomes `_`, position by position |
| Base64.StripTrailingPadding | src/utils/spotifyAuth.ts:28-35 | `/=+$/` removal leaves a prefix that does not end in '=', and everything removed was '=' |
| Base64.ToBase64Url | src/utils/spotifyAuth.ts:28-35 | The challenge text contains no `+` or `/` and does not end in '=' |
| Base64.MapUrlSafeEncode | src/utils/spotifyAuth.ts:28-35 | Rewriting the standard alphabet's output gives the url-safe alphabet's encoding |
| Base64.StripPaddingAfter | src/utils/spotifyAuth.ts:28-35 | Stripping removes exactly a padding run appended after a non-'=' end |
| Base64.ChallengeEncoding | src/utils/spotifyAuth.ts:28-35 | `btoa`, then the two replacements, then the strip, equals unpadded base64url (RFC 4648, section 5) of the digest |
| Base64.DigestChallengeLength | src/utils/spotifyAuth.ts:28-35 | A 32-byte digest gives a 43-character challenge |
| SpotifyAuth.ResolveConfig | src/utils/spotifyAuth.ts:1-9 | An empty or missing client id becomes ""; an empty or missing redirect URI falls back to the default |
| SpotifyAuth.VerifierAlphabetIsUnreserved | src/utils/spotifyAuth.ts:18-25 | The verifier alphabet has 66 distinct characters and is exactly the unreserved set (RFC 7636, section 4.1) |
| SpotifyAuth.AlphabetIndex | src/utils/spotifyAuth.ts:18-25 | `Math.floor(x * 66)` for x in [0, 1): an index whose cell holds x |
| SpotifyAuth.GenerateCodeVerifier | src/utils/spotifyAuth.ts:18-25 | One character per draw, each the alphabet cell that the draw falls in, all unreserved |
| SpotifyAuth.GenerateDefaultCodeVerifier | src/utils/spotifyAuth.ts:18-25 | The default verifier's length lies within RFC 7636's 43..128 and it uses only unreserved characters |
| SpotifyAuth.GenerateCodeChallenge | src/utils/spotifyAuth.ts:28-35 | The challenge is the unpadded base64url of SHA-256(verifier): 43 characters, no `+`, `/` or trailing '=' |
| SpotifyAuth.StoreCodeVerifier | src/utils/spotifyAuth.ts:38-40 | Storing sets the verifier and leaves the other storage keys alone |
| SpotifyAuth.ClearCodeVerifier | src/utils/spotifyAuth.ts:46-50 | Clearing removes the verifier and leaves the other storage keys alone |
| SpotifyAuth.Lookup | src/utils/spotifyAuth.ts:52-66 | A query-parameter lookup finds nothing exactly when no entry has the key |
| SpotifyAuth.LookupAt | src/utils/spotifyAuth.ts:52-66 | The first entry under a key is the one a lookup finds |
| SpotifyAuth.AuthParamsLookup | src/utils/spotifyAuth.ts:52-66 | Each of the six authorize parameters reads back as written |
| SpotifyAuth.GetAuthUrl | src/utils/spotifyAuth.ts:52-66 | Stores the new verifier and sends to the authorize endpoint with response_type=code, S256, the verifier's challenge, the client id, the redirect URI and the scopes |
| SpotifyAuth.BeginExchange | src/utils/spotifyAuth.ts:79-106 | No request without a (non-empty) stored verifier; otherwise one POST carrying the code, the verifier, the client id and the redirect URI |
| SpotifyAuth.FinishExchange | src/utils/spotifyAuth.ts:108-128 | Every outcome clears the verifier; only an OK response yields a token |
| SpotifyAuth.ExchangeCodeForToken | src/utils/spotifyAuth.ts:79-129 | Without a verifier: nothing is sent and the result is null. Otherwise: exactly one request, then the verifier is cleared |
| SpotifyAuth.SecondExchangeIsOffline | src/utils/spotifyAuth.ts:79-129 | Whatever the first exchange's outcome, a second one without a new login sends nothing |
| App.RunAuthEffect | src/App.tsx:25-61 | A stored token is adopted and the URL cleaned. An error parameter wins over a code. An already-processed code is skipped. Otherwise the code is marked before the exchange starts, and a request goes out only with a stored verifier |
| App.OnExchangeSettled | src/App.tsx:62-85 | Success stores the token; null sets the failure message; a rejection sets the auth-failed message. Loading always ends, the URL is cleaned and the marker removed |
| App.RemoveAt | src/App.tsx:62-85 | Removing the settled exchange keeps the others in order |
| App.Settle | src/App.tsx:62-85 | A fetched exchange is taken off the pending list, its answer is stored by `FinishExchange` (verifier cleared, token kept when present), and the app then settles with that token exactly as `OnExchangeSettled` describes; one that never fetched resolves to null; no request is added |
| App.OnAuthError | src/App.tsx:90-101 | The 401 signal empties the token in state and storage and sets the session-expired message; every other app field, the stored verifier and processed code, the pending exchanges, the requests and the location stay as they were |
| App.StepKeepsGuard | src/App.tsx:25-101 | Every event — navigation, effect run, settlement, 401 signal, reload — keeps the one-request invariant for code c |
| App.RunKeepsGuard | src/App.tsx:25-101 | Any run of such events keeps the invariant |
| App.AtMostOneTokenRequest | src/App.tsx:25-101 | Within a single code and without a new login, at most one token request is sent, and it carries that code |
| App.DoubleEffectSendsOnce | src/App.tsx:47-61 | Running the effect twice on `?code=ABC123` before the exchange settles sends one request |
| App.SignalAfterSuccessNeedsNewLogin | src/App.tsx:90-101 | After an exchange and a 401, no token is left and a re-run of the effect sends no request |
| App.FindById | src/App.tsx:103-115 | The index of the first concert with the id, or -1 exactly when none has it |
| App.HandleConcertCreated | src/App.tsx:103-115 | A new id is prepended; a known id replaces its first occurrence in place, leaving length and every other entry unchanged |
| App.HandleConcertCreatedIdempotent | src/App.tsx:103-115 | Creating the same concert twice equals creating it once |
| SpotifyPlayer.Mount | src/hooks/useSpotifyPlayer.ts:8-14 | Without a (non-empty) token nothing is loaded at all; with one, the SDK script is requested |
| SpotifyPlayer.OnSdkReady | src/hooks/useSpotifyPlayer.ts:16-48 | The player is created and connected only when the token was present at mount |
| SpotifyPlayer.OnReady | src/hooks/useSpotifyPlayer.ts:23-27 | `ready` records the device id and sets readiness |
| SpotifyPlayer.OnNotReady | src/hooks/useSpotifyPlayer.ts:29-32 | `not_ready` clears readiness and keeps the device id |
| SpotifyPlayer.Play | src/hooks/useSpotifyPlayer.ts:55-78 | No call exactly when the device id or token is missing; otherwise one PUT with the URIs unchanged; a failure changes nothing |
| SpotifyPlayer.Delegate | src/hooks/useSpotifyPlayer.ts:80-83 | `player?.x()` is a no-op without a player and one command otherwise |
| SpotifyPlayer.PlayAfterNotReady | src/hooks/useSpotifyPlayer.ts:29-32 | After `not_ready`, `play` still sends a PUT to the last device (readiness is not consulted) |
| SpotifyPlayer.NoTokenNoPlayer | src/hooks/useSpotifyPlayer.ts:8-9 | Without a token, whatever the SDK reports and the component calls, no player exists and the log stays empty |
| SpotifyPlayer.ReplayKeepsCredentials | src/hooks/useSpotifyPlayer.ts:28-83 | Over any sequence of SDK callbacks and component calls the token is unchanged, and every play request in the log carries that token and a non-empty device id |
| SpotifyPlayer.MountedRequestsCarryToken | src/hooks/useSpotifyPlayer.ts:8-83 | From a mount, every play request ever sent carries the mount-time token and a device id |
| ConcertPlayer.FindUri | src/components/ConcertPlayer.tsx:64-66 | The index of the first song with exactly that URI, or -1 exactly when none has it |
| ConcertPlayer.OnStateChanged | src/components/ConcertPlayer.tsx:57-74 | A null state changes nothing. Otherwise the playing flag follows `paused`, the index moves to the first matching song, and applause fires only on a forward move |
| ConcertPlayer.ReapplyIsNoOp | src/components/ConcertPlayer.tsx:57-74 | Re-delivering a state just applied changes nothing |
| ConcertPlayer.Stutter | src/components/ConcertPlayer.tsx:57-74 | Doubles each notification |
| ConcertPlayer.RunStutter | src/components/ConcertPlayer.tsx:57-74 | Duplicated notifications end in the same view, with no extra applause |
| ConcertPlayer.NonNull | src/components/ConcertPlayer.tsx:58 | Keeps only the non-null notifications |
| ConcertPlayer.RunIgnoresNulls | src/components/ConcertPlayer.tsx:58 | Dropping null notifications does not change the outcome |
| ConcertPlayer.RunBounds | src/components/ConcertPlayer.tsx:57-74 | Applause fires at most once per non-null notification; an index in range stays in range; the binding is untouched |
| ConcertPlayer.HandlePlay | src/components/ConcertPlayer.tsx:31-35 | Hands the setlist's URIs, in order, to the player binding's `play` and sets the playing flag; the position and applause stay |
| ConcertPlayer.HandlePlaySendsSetlist | src/components/ConcertPlayer.tsx:31-35 | Pressing play sends nothing or exactly one play request, whose URIs are the setlist's in order |
| ConcertPlayer.HandlePause | src/components/ConcertPlayer.tsx:37-40 | Delegates a pause and clears the playing flag |
| ConcertPlayer.HandleNext | src/components/ConcertPlayer.tsx:42-46 | Applause always fires; the index becomes min(index+1, length-1) |
| ConcertPlayer.HandlePrevious | src/components/ConcertPlayer.tsx:48-51 | No applause; the index becomes max(index-1, 0) |
| ConcertPlayer.ForwardJumpFiresOnce | src/components/ConcertPlayer.tsx:67-73 | Jumping from the first to the third song fires applause once, for any number n ≥ 1 of deliveries of the same state |
| ConcertPlayer.RepeatedIsOnce | src/components/ConcertPlayer.tsx:57-74 | Any number of deliveries of one state act as a single delivery |
| PlayerContext.Initial | src/contexts/PlayerContext.tsx:28-35 | The initial state is valid, with no concert, not playing and at index 0 |
| PlayerContext.SetVolume | src/contexts/PlayerContext.tsx:37-43 | The volume is clamped to [0, 100]; a positive volume unmutes; 0 keeps the mute flag |
| PlayerContext.ToggleMute | src/contexts/PlayerContext.tsx:45-54 | Muting saves the volume and silences; unmuting restores the saved volume |
| PlayerContext.ToggleMuteTwice | src/contexts/PlayerContext.tsx:45-54 | Mute then unmute restores volume and flag |
| PlayerContext.ToggleShuffle | src/contexts/PlayerContext.tsx:56-58 | Flips shuffle only |
| PlayerContext.ToggleShuffleTwice | src/contexts/PlayerContext.tsx:56-58 | Two toggles are the identity |
| PlayerContext.NextRepeatMode | src/contexts/PlayerContext.tsx:60-66 | The successor is fixed: off goes to all, all to one, one back to off |
| PlayerContext.CycleRepeatMode | src/contexts/PlayerContext.tsx:60-66 | The repeat mode becomes the successor of the current one; nothing else changes |
| PlayerContext.CycleRepeatModeThrice | src/contexts/PlayerContext.tsx:60-66 | Three steps return to the start; from off the steps pass through all and then one |
| PlayerContext.PlayNext | src/contexts/PlayerContext.tsx:68-86 | No concert or repeat-one changes nothing. Otherwise: advance; at the end wrap under repeat-all or stop |
| PlayerContext.PlayPrevious | src/contexts/PlayerContext.tsx:88-96 | Steps back; from the first song wraps to the last under repeat-all, else stays; never touches the playing flag |
| PlayerContext.PlaySongAtIndex | src/contexts/PlayerContext.tsx:98-106 | An in-range index becomes current and playing; any other index changes nothing |
| PlayerContext.NavigateStaysInRange | src/contexts/PlayerContext.tsx:68-106 | Any sequence of next/previous/select keeps the index inside a non-empty setlist |
| SpotifySearch.SearchTrack | src/utils/spotifySearch.ts:29-58 | A track is found exactly when the answer is OK and has items; then it is the first item |
| SpotifySearch.ToMatch | src/utils/spotifySearch.ts:75-79 | The URI is null when nothing (or an empty URI) is found; the duration defaults to 180000 when missing or 0 |
| SpotifySearch.SearchSetlist | src/utils/spotifySearch.ts:60-88 | Entry i is the match of song i |
| SpotifySearch.SearchTracksForSetlist | src/utils/spotifySearch.ts:60-88 | Equals the reference result. For each song: a progress report, then the query `track:… artist:…`; a pause between songs and none after the last |
| SpotifySearch.CountPauses | src/utils/spotifySearch.ts:82-84 | Never more pauses than effects |
| SpotifySearch.CountPausesAppend | src/utils/spotifySearch.ts:82-84 | Pause counts add over concatenation |
| SpotifySearch.PausesBetweenSongs | src/utils/spotifySearch.ts:82-84 | n songs laid out that way contain exactly n-1 pauses |
| Enrich.Strategies | src/utils/enrichConcerts.ts:33-47 | The three queries, most specific first |
| Enrich.FirstHit | src/utils/enrichConcerts.ts:33-59 | Queries are sent in order, each only after all earlier ones missed; the hit is the last one sent; a miss means every query missed |
| Enrich.EnrichSong | src/utils/enrichConcerts.ts:26-59 | A song with a track URI is skipped with no search. Otherwise the queries sent are a prefix of the three strategies; the first that hits sets URI and duration; id and title are kept; three misses leave the song unchanged after all three queries were sent |
| Enrich.EnrichSetlist | src/utils/enrichConcerts.ts:23-61 | Each song is enriched on its own, in order; the search log is the concatenation of the per-song logs, at most three queries per song |
| Enrich.SongLogs | src/utils/enrichConcerts.ts:23-61 | One log per song, in setlist order, each being that song's own search log |
| Enrich.EnrichConcert | src/utils/enrichConcerts.ts:12-66 | A concert with no missing URI is returned unchanged without searching. Otherwise only the setlist changes, song by song |
| Enrich.EnrichSongAgain | src/utils/enrichConcerts.ts:26-59 | If the search only returns track URIs, enriching a song twice equals once |
| Enrich.EnrichConcertAgain | src/utils/enrichConcerts.ts:12-66 | If the search only returns track URIs, enriching a concert twice equals once |
| EnrichedConcerts.EnrichAll | src/hooks/useEnrichedConcerts.ts:47-59 | Reference: concert i is enriched on its own |
| EnrichedConcerts.SearchesOf | src/hooks/useEnrichedConcerts.ts:47-59 | Reference: the searches of concert i |
| EnrichedConcerts.EnrichSequentially | src/hooks/useEnrichedConcerts.ts:47-59 | The loop's result equals the reference. Concerts are searched in order, with a pause between two and none after the last |
| EnrichedConcerts.RunEffect | src/hooks/useEnrichedConcerts.ts:21-75 | No token or no concerts: the input. A cache fresh for seven days with the right length is used without a search. A corrupt cache gives its error. Otherwise everything is searched and the cache written; a failed write falls back to the input |
| EnrichedConcerts.FreshCacheReused | src/hooks/useEnrichedConcerts.ts:29-65 | A run that wrote the cache makes every later run within seven days reuse it without searching |
| EnrichedConcerts.StaleCacheReenriches | src/hooks/useEnrichedConcerts.ts:29-59 | An expired cache, or one of the wrong length, searches everything again |
| SpotifyImages.TokenValidIff | src/utils/spotifyImages.ts:2-6 | A token is valid exactly when it is present and has a non-whitespace character |
| SpotifyImages.FetchArtistImage | src/utils/spotifyImages.ts:9-58 | An invalid token sends nothing. Otherwise exactly one search, followed only on a 401 by the auth-error handling (removing `spotify_access_token`, then the signal), which gives null; the first artist's first image is returned exactly when it exists |
| SpotifyImages.TrackId | src/utils/spotifyImages.ts:70-71 | An id exists exactly when the third colon-separated piece exists and is non-empty, and then it is that piece; none exists without a colon |
| SpotifyImages.TrackIdOfTrackUri | src/utils/spotifyImages.ts:70-71 | `spotify:track:<id>` gives back the id |
| SpotifyImages.MediumImage | src/utils/spotifyImages.ts:103-106 | The second image when it has a URL, else the first; none exactly when there are no images |
| SpotifyImages.FetchAlbumArt | src/utils/spotifyImages.ts:61-113 | An invalid token or URI sends nothing. Otherwise exactly one track lookup, followed only on a 401 by the auth-error handling; art exactly when OK with images |
| SpotifyImages.OrNull | src/utils/spotifyImages.ts:138 | `x \|\| null`: an empty string reads as null |
| SpotifyImages.CachedLookup | src/utils/spotifyImages.ts:130-144 | A cached URI answers from the cache with no request. An uncached one is fetched once and stored. Existing entries never change |
| SpotifyImages.FetchAlbumArtCached | src/utils/spotifyImages.ts:130-144 | The cache in front of `fetchAlbumArt` |
| SpotifyImages.CachedLookupRepeats | src/utils/spotifyImages.ts:130-144 | A second lookup of a URI sends nothing and answers what the first stored |
| SpotifyImages.Sent | src/utils/spotifyImages.ts:132-143 | Reference: the requests of those lookups in order; when every URI is already cached nothing is sent |
| SpotifyImages.ThroughCaches | src/utils/spotifyImages.ts:132-143 | Looking the URIs up one after the other (`Through`) caches exactly the old URIs plus the new ones, keep old entries, and store each new URI's fetched art |
| SpotifyImages.ThroughAppend | src/utils/spotifyImages.ts:153-172 | Looking up a + b leaves the cache that looking up b leaves on the cache from a |
| SpotifyImages.SentAppend | src/utils/spotifyImages.ts:153-172 | Looking up a + b sends a's requests, then b's on the cache from a, so chunking the URIs does not change the requests |
| SpotifyImages.RepeatedUriSendsNothing | src/utils/spotifyImages.ts:136-138 | A URI already looked up is answered from the cache when it comes again: no second request |
| SpotifyImages.FetchChunk | src/utils/spotifyImages.ts:156-166 | One batch goes through the cache: every URI gets a result agreeing with the cache, older entries are kept, each newly cached value is what the fetch returned, an all-cached batch sends nothing, and the cache and requests are exactly those of the batch's lookups in order |
| SpotifyImages.FetchNextChunk | src/utils/spotifyImages.ts:155-166 | One more chunk extends the covered prefix: results for it, and the cache and requests of the lookups of the whole prefix in order |
| SpotifyImages.FetchInBatches | src/utils/spotifyImages.ts:147-174 | For any fetch: results keyed by exactly the URIs; uncached ones hold the fetched image, cached ones the cached value; the final cache and the request log are those of looking the URIs up one by one in input order (each uncached URI fetched once, no cached one); chunks of ten with a pause between two chunks |
| SpotifyImages.FetchBatchAlbumArt | src/utils/spotifyImages.ts:147-174 | The results' keys are exactly the URIs and agree with the cache; an uncached URI holds what `fetchAlbumArt` returns for it, a cached one its cached value; the request log is exactly `fetchAlbumArt`'s requests for the uncached URIs, once each, in input order, none for a cached one. Requests go in chunks of ten, in order, with a pause between chunks |
| ConcertBuilder.SetQueries | src/utils/concertBuilder.ts:12-17 | Each song of a set becomes a query with the artist's name |
| ConcertBuilder.Flatten | src/utils/concertBuilder.ts:12-17 | One query per song over all sets, all with the artist's name |
| ConcertBuilder.FlattenAt | src/utils/concertBuilder.ts:12-17 | Song i of set k becomes the query at position (songs before set k) + i, built from that song |
| ConcertBuilder.FlattenSingle | src/utils/concertBuilder.ts:12-17 | A single set flattens to that set's own queries |
| ConcertBuilder.FlattenAppend | src/utils/concertBuilder.ts:12-17 | Flattening keeps the order of the sets |
| ConcertBuilder.FlattenEmpty | src/utils/concertBuilder.ts:12-22 | No song at all exactly when every set is empty |
| ConcertBuilder.Found | src/utils/concertBuilder.ts:36-37 | Keeps exactly the matches with a URI, in order |
| ConcertBuilder.FoundAppend | src/utils/concertBuilder.ts:36-37 | The filter distributes over concatenation |
| ConcertBuilder.Renumber | src/utils/concertBuilder.ts:36-43 | Entry j has id "j+1" and the match's title, URI and duration |
| ConcertBuilder.RenumberIdsDistinct | src/utils/concertBuilder.ts:36-43 | The ids are pairwise distinct and read back as their positions |
| ConcertBuilder.Location | src/utils/concertBuilder.ts:61-64 | "city, code" (or "city, state") when a state is known, else "city, country" |
| ConcertBuilder.Description | src/utils/concertBuilder.ts:67-69 | The setlist's info when present, else the generated sentence |
| ConcertBuilder.GeneratedDescriptionCount | src/utils/concertBuilder.ts:67-69 | The generated sentence states the kept-song count, which can be read back |
| ConcertBuilder.ConcertIdShape | src/utils/concertBuilder.ts:72 | On ASCII names the id has one slug character per name character for both names, a dash after each slug, and the date as given at the end |
| ConcertBuilder.Title | src/utils/concertBuilder.ts:77 | The tour name when present, else "Live at <venue>" |
| ConcertBuilder.BuildConcert | src/utils/concertBuilder.ts:5-92 | Null with no songs or nothing found. Otherwise a concert of the found songs, renumbered, every one with a URI, and all fields from the setlist |
| ConcertBuilder.AllFoundKeepsEverySong | src/utils/concertBuilder.ts:36-48 | When every song is found, the concert keeps every song, in setlist order |

## Left out

- Rendering, routing, the static concert catalog, the setlist.fm HTTP client and audio effects are not modelled. The applause cue is counted, not played.
- The music SDK's internals are not modelled. The `initialization_error`, `authentication_error` and `account_error` listeners and the effect clean-up (`disconnect`) only log or tear down.
- Network I/O, `fetch` and JSON parsing are inputs: an answer per request, or a thrown error.
- The clock, `Math.random` and SHA-256 are inputs. Random draws are given as reals in [0, 1), and the digest as a function.
- `toLocaleDateString` and `Date` parsing are left out: the formatted date is an input of `ConcertBuilder.BuildConcert`.
- The builder's `catch` (lines 89-92) is left out: the modelled steps are total and do not throw.
- URL serialization by `URLSearchParams` is left out: a URL is its endpoint and ordered key/value list.
- Only the `code` and `error` query parameters of the page URL are modelled. The `includes('code=')` pre-check is folded into "a code is present".
- The volume is an integer percentage, not a float.
- Console logging, progress message texts and the optional-ness of `onProgress` callbacks are left out. Progress reports are modelled as emitted.
- A thrown non-`Error` value in the enrichment hook is left out; its message is an input like any other.
- `Promise.all` in `enrichConcertWithSpotify` and inside an image batch is modelled in order. Requests that overlap in time, and two copies of one URI inside one batch racing for the cache, are left out.
- SpotifyImages.FetchChunk: a URI that appears twice inside one batch is fetched once here. In the source, the `Promise.all` lookups of a batch all check the cache before any answer arrives, so each copy is fetched. The model is sequential, as noted above.
- `fetchConcertImages` is left out: it pairs `SpotifyImages.FetchArtistImage` and `SpotifyImages.FetchAlbumArt` with no logic of its own.
- Stale closures are left out: `ConcertPlayer.OnStateChanged` reads the current index, not an older render's.
- App.AtMostOneTokenRequest: covers runs with one authorization code and no new login. With two different codes alternating while an exchange is in flight, the session marker only remembers the latest code, so a request for the first code could be sent again. That needs a navigation back to an old callback URL mid-flight.
- EnrichedConcerts.RunEffect: a corrupt cache is reported and never rewritten, so every later run takes the same path. This is what the source does.

=== FILE: app.dfy ===
/** The top-level component's session logic: the mount effect that adopts a
    stored token or exchanges the redirect's authorization code, the
    settlement of that exchange, the `spotify-auth-error` listener, and the
    upsert of concerts built from search. Promise settlement and page reloads
    are explicit events, so the effect can be run, re-run and interleaved with
    settlements in any order. */
module App {
  import opened Wrappers
  import opened Types
  import opened SpotifyAuth

  /** The `code` and `error` query parameters of the current page URL. */
  datatype Location = Location(code: Option<string>, error: Option<string>)

  /** The URL after `window.history.replaceState({}, '', '/')`. */
  const CleanLocation: Location := Location(None, None)

  datatype AppState = AppState(
    accessToken: Option<string>,
    authError: Option<string>,
    isLoading: bool,
    dynamicConcerts: seq<Concert>)

  const InitialApp: AppState := AppState(None, None, false, [])

  const ExchangeFailedMessage: string :=
    "Failed to exchange authorization code for token. The code may have expired. Please try logging in again."
  const AuthFailedMessage: string := "Failed to authenticate with Spotify. Please try logging in again."
  const SessionExpiredMessage: string := "Your Spotify session has expired. Please log in again."

  /** An exchange whose promise has not settled yet; `request` is the token
      request it sent, or None when it returned before the fetch. */
  datatype Pending = Pending(code: string, request: Option<Url>)

  /** Everything the login flow touches: browser storage, component state,
      the URL, the unsettled exchanges and every token request ever sent. */
  datatype Session = Session(
    storage: Storage,
    app: AppState,
    location: Location,
    pending: seq<Pending>,
    requests: seq<Url>)

  /* ---------------------------------------------------------------------------
     The mount effect
     ------------------------------------------------------------------------- */

  function ClearedLocation(loc: Location): Location {
    if loc.code.Some? || loc.error.Some? then CleanLocation else loc
  }

  /** The authorization effect, up to the point where the exchange is in flight. */
  function RunAuthEffect(s: Session, config: Config): (r: Session)
    // nothing here settles an exchange, and requests are only ever added
    ensures |s.pending| <= |r.pending| <= |s.pending| + 1 && r.pending[..|s.pending|] == s.pending
    ensures |s.requests| <= |r.requests| <= |s.requests| + 1 && r.requests[..|s.requests|] == s.requests
    ensures r.app.dynamicConcerts == s.app.dynamicConcerts
    // a stored token is adopted and nothing is exchanged
    ensures Truthy(s.storage.accessToken) ==>
      r == s.(app := s.app.(accessToken := s.storage.accessToken), location := ClearedLocation(s.location))
    // an `error` parameter is reported and wins over a `code` parameter
    ensures !Truthy(s.storage.accessToken) && Truthy(s.location.error) ==>
      r == s.(app := s.app.(authError := s.location.error), location := CleanLocation)
    // a code already marked as processed is skipped
    ensures (!Truthy(s.storage.accessToken) && !Truthy(s.location.error) && Truthy(s.location.code)
             && s.storage.processedCode == s.location.code) ==> r == s.(location := CleanLocation)
    // otherwise the code is marked first, then the exchange starts with that marker in place
    ensures (!Truthy(s.storage.accessToken) && !Truthy(s.location.error) && Truthy(s.location.code)
             && s.storage.processedCode != s.location.code) ==>
      && r.storage == s.storage.(processedCode := s.location.code)
      && r.app == s.app.(isLoading := true)
      && r.pending == s.pending + [Pending(s.location.code.value, BeginExchange(r.storage, config, s.location.code.value))]
      && (Truthy(s.storage.codeVerifier) <==> |r.requests| == |s.requests| + 1)
    // a request is only ever sent for the code in the URL, with the stored verifier
    ensures |r.requests| > |s.requests| ==>
      && Truthy(s.location.code)
      && Lookup(r.requests[|s.requests|].params, "code") == s.location.code
      && Lookup(r.requests[|s.requests|].params, "code_verifier") == s.storage.codeVerifier
    ensures !Truthy(s.storage.accessToken) && !Truthy(s.location.error) && !Truthy(s.location.code) ==> r == s
  {
    if Truthy(s.storage.accessToken) then
      s.(app := s.app.(accessToken := s.storage.accessToken), location := ClearedLocation(s.location))
    else if Truthy(s.location.error) then
      s.(app := s.app.(authError := s.location.error), location := CleanLocation)
    else if Truthy(s.location.code) then
      var code := s.location.code.value;
      if s.storage.processedCode == Some(code) then s.(location := CleanLocation)
      else
        var marked := s.storage.(processedCode := Some(code));
        var req := BeginExchange(marked, config, code);
        s.(storage := marked,
           app := s.app.(isLoading := true),
           pending := s.pending + [Pending(code, req)],
           requests := s.requests + (if req.Some? then [req.value] else []))
    else s
  }

  /* ---------------------------------------------------------------------------
     Settlement of an exchange
     ------------------------------------------------------------------------- */

  /** How the promise of `exchangeCodeForToken` settled. */
  datatype Settlement = Resolved(token: Option<string>) | Rejected

  /** The effect's `.then` / `.catch` handlers. */
  function OnExchangeSettled(s: Session, outcome: Settlement): (r: Session)
    ensures r.pending == s.pending && r.requests == s.requests
    ensures !r.app.isLoading && r.location == CleanLocation
    ensures r.storage.processedCode.None?
    // success: the token is persisted and adopted, the error cleared
    ensures outcome.Resolved? && Truthy(outcome.token) ==>
      && r.storage == s.storage.(accessToken := outcome.token, processedCode := None)
      && r.app == s.app.(accessToken := outcome.token, authError := None, isLoading := false)
    // a null token: error shown, verifier and marker removed
    ensures outcome.Resolved? && !Truthy(outcome.token) ==>
      && r.storage == s.storage.(codeVerifier := None, processedCode := None)
      && r.app == s.app.(authError := Some(ExchangeFailedMessage), isLoading := false)
    // a rejection: error shown, only the marker removed
    ensures outcome.Rejected? ==>
      && r.storage == s.storage.(processedCode := None)
      && r.app == s.app.(authError := Some(AuthFailedMessage), isLoading := false)
  {
    match outcome
    case Resolved(token) =>
      if Truthy(token) then
        s.(storage := s.storage.(accessToken := token, processedCode := None),
           app := s.app.(accessToken := token, authError := None, isLoading := false),
           location := CleanLocation)
      else
        s.(storage := s.storage.(codeVerifier := None, processedCode := None),
           app := s.app.(authError := Some(ExchangeFailedMessage), isLoading := false),
           location := CleanLocation)
    case Rejected =>
      s.(storage := s.storage.(processedCode := None),
         app := s.app.(authError := Some(AuthFailedMessage), isLoading := false),
         location := CleanLocation)
  }

  function RemoveAt<T>(xs: seq<T>, i: nat): (r: seq<T>)
    requires i < |xs|
    ensures |r| == |xs| - 1
    ensures forall j :: 0 <= j < |r| ==> r[j] == (if j < i then xs[j] else xs[j + 1])
  {
    xs[..i] + xs[i + 1..]
  }

  /** The `i`-th unsettled exchange completes: a fetched one finishes with the
      token endpoint's `resp` (which clears the verifier); one that returned
      before the fetch resolves to null. `exchangeCodeForToken` catches
      everything after its verifier check, so its promise never rejects. */
  function Settle(s: Session, i: nat, resp: TokenResponse): (r: Session)
    ensures i >= |s.pending| ==> r == s
    ensures i < |s.pending| ==> |r.pending| == |s.pending| - 1 && r.requests == s.requests
    ensures i < |s.pending| && s.pending[i].request.Some? ==> r.storage.codeVerifier.None?
    // a fetched exchange settles with what the token endpoint answered
    ensures i < |s.pending| && s.pending[i].request.Some? ==>
      var (st, token) := FinishExchange(s.storage, resp);
      r == OnExchangeSettled(s.(pending := RemoveAt(s.pending, i), storage := st), Resolved(token))
    ensures i < |s.pending| && s.pending[i].request.None? ==>
      r == OnExchangeSettled(s.(pending := RemoveAt(s.pending, i)), Resolved(None))
  {
    if i >= |s.pending| then s
    else
      var p := s.pending[i];
      var rest := s.(pending := RemoveAt(s.pending, i));
      if p.request.Some? then
        var (st, token) := FinishExchange(s.storage, resp);
        OnExchangeSettled(rest.(storage := st), Resolved(token))
      else OnExchangeSettled(rest, Resolved(None))
  }

  /* ---------------------------------------------------------------------------
     The auth-error listener
     ------------------------------------------------------------------------- */

  /** `spotify-auth-error`: the token leaves both the state and local storage. */
  function OnAuthError(s: Session): (r: Session)
    ensures r.app == s.app.(accessToken := None, authError := Some(SessionExpiredMessage))
    ensures r.storage.accessToken.None?
    ensures r.storage.codeVerifier == s.storage.codeVerifier && r.storage.processedCode == s.storage.processedCode
    ensures r.pending == s.pending && r.requests == s.requests && r.location == s.location
  {
    s.(app := s.app.(accessToken := None, authError := Some(SessionExpiredMessage)),
       storage := s.storage.(accessToken := None))
  }

  /* ---------------------------------------------------------------------------
     Traces
     ------------------------------------------------------------------------- */

  /** What can happen to a page: the URL changes (a redirect or back
      navigation), the mount effect runs (also twice, as under strict mode),
      an exchange settles, a downstream 401 is signalled, or the page reloads
      (component state and unsettled promises are lost, storage survives). */
  datatype Event =
    | Navigate(location: Location)
    | RunEffect
    | SettleExchange(index: nat, response: TokenResponse)
    | AuthErrorSignal
    | Reload

  function Step(s: Session, config: Config, e: Event): Session {
    match e
    case Navigate(loc) => s.(location := loc)
    case RunEffect => RunAuthEffect(s, config)
    case SettleExchange(i, resp) => Settle(s, i, resp)
    case AuthErrorSignal => OnAuthError(s)
    case Reload => s.(app := InitialApp, pending := [])
  }

  function Run(s: Session, config: Config, events: seq<Event>): Session
    decreases |events|
  {
    if |events| == 0 then s else Run(Step(s, config, events[0]), config, events[1..])
  }

  /** The URL carries no code or the one code `c`. */
  predicate OnlyCode(loc: Location, c: string) {
    loc.code.None? || loc.code == Some(c)
  }

  /** What keeps a second request for `c` from ever being sent: while a
      verifier is stored, every unsettled exchange has fetched, and once a
      request is out the marker holds `c`. */
  predicate ExchangeGuard(s: Session, c: string) {
    && |s.requests| <= 1
    && OnlyCode(s.location, c)
    && (forall r :: r in s.requests ==> Lookup(r.params, "code") == Some(c))
    && (Truthy(s.storage.codeVerifier) ==>
          && (forall p :: p in s.pending ==> p.request.Some?)
          && (|s.requests| == 1 ==> s.storage.processedCode == Some(c)))
  }

  lemma StepKeepsGuard(s: Session, config: Config, e: Event, c: string)
    requires ExchangeGuard(s, c)
    requires e.Navigate? ==> OnlyCode(e.location, c)
    ensures ExchangeGuard(Step(s, config, e), c)
  {
    match e
    case Navigate(loc) =>
    case RunEffect =>
      var r := RunAuthEffect(s, config);
      if |r.requests| > |s.requests| {
        assert r.requests == s.requests + [r.requests[|s.requests|]];
      } else {
        assert r.requests == s.requests;
      }
    case SettleExchange(i, resp) =>
      if i < |s.pending| && s.pending[i].request.None? {
        assert !Truthy(s.storage.codeVerifier);
      }
    case AuthErrorSignal =>
    case Reload =>
  }

  /** For one authorization code, however often the page re-runs its effect,
      reloads, navigates back to the callback URL, or sees exchanges settle
      in any order and with any outcome, at most one token request is ever
      sent — provided no new login stores a fresh verifier. */
  lemma {:induction false} AtMostOneTokenRequest(s: Session, config: Config, events: seq<Event>, c: string)
    requires s.requests == [] && s.pending == [] && OnlyCode(s.location, c)
    requires forall i :: 0 <= i < |events| && events[i].Navigate? ==> OnlyCode(events[i].location, c)
    ensures |Run(s, config, events).requests| <= 1
    ensures forall r :: r in Run(s, config, events).requests ==> Lookup(r.params, "code") == Some(c)
  {
    RunKeepsGuard(s, config, events, c);
  }

  lemma {:induction false} RunKeepsGuard(s: Session, config: Config, events: seq<Event>, c: string)
    requires ExchangeGuard(s, c)
    requires forall i :: 0 <= i < |events| && events[i].Navigate? ==> OnlyCode(events[i].location, c)
    ensures ExchangeGuard(Run(s, config, events), c)
    decreases |events|
  {
    if |events| > 0 {
      StepKeepsGuard(s, config, events[0], c);
      RunKeepsGuard(Step(s, config, events[0]), config, events[1..], c);
    }
  }

  /** The mount effect run twice before the exchange settles (strict-mode
      double invocation of the callback URL `?code=ABC123`) sends exactly one
      request when a verifier is stored. */
  lemma DoubleEffectSendsOnce(s: Session, config: Config)
    requires s.location == Location(Some("ABC123"), None)
    requires !Truthy(s.storage.accessToken) && Truthy(s.storage.codeVerifier)
    requires s.storage.processedCode != Some("ABC123")
    ensures var twice := RunAuthEffect(RunAuthEffect(s, config), config);
            |twice.requests| == |s.requests| + 1 && |twice.pending| == |s.pending| + 1
  {
  }

  /** A 401 from a downstream call ends the session until a new login: the
      effect run afterwards cannot reuse the consumed verifier. */
  lemma SignalAfterSuccessNeedsNewLogin(s: Session, config: Config, i: nat, resp: TokenResponse)
    requires i < |s.pending| && s.pending[i].request.Some?
    ensures var after := RunAuthEffect(OnAuthError(Settle(s, i, resp)), config);
            after.requests == s.requests && after.app.accessToken.None?
  {
  }

  /* ---------------------------------------------------------------------------
     handleConcertCreated
     ------------------------------------------------------------------------- */

  /** `prev.findIndex(c => c.id === id)`. */
  function FindById(concerts: seq<Concert>, id: string): (k: int)
    ensures -1 <= k < |concerts|
    ensures k >= 0 ==> concerts[k].id == id
    ensures forall j :: 0 <= j < |concerts| && (k < 0 || j < k) ==> concerts[j].id != id
    decreases |concerts|
  {
    if |concerts| == 0 then -1
    else if concerts[0].id == id then 0
    else
      var k := FindById(concerts[1..], id);
      if k < 0 then -1 else k + 1
  }

  /** `handleConcertCreated`: replaces the first concert with the same id in
      place, or puts the new one first. */
  function HandleConcertCreated(prev: seq<Concert>, concert: Concert): (r: seq<Concert>)
    ensures (forall j :: 0 <= j < |prev| ==> prev[j].id != concert.id) ==> r == [concert] + prev
    ensures forall k ::
              (0 <= k < |prev| && prev[k].id == concert.id && (forall j :: 0 <= j < k ==> prev[j].id != concert.id))
              ==> (|r| == |prev| && r[k] == concert && forall j :: 0 <= j < |prev| && j != k ==> r[j] == prev[j])
  {
    var k := FindById(prev, concert.id);
    if k >= 0 then prev[k := concert] else [concert] + prev
  }

  /** Creating the same concert again changes nothing more. */
  lemma HandleConcertCreatedIdempotent(prev: seq<Concert>, concert: Concert)
    ensures HandleConcertCreated(HandleConcertCreated(prev, concert), concert) == HandleConcertCreated(prev, concert)
  {
    var once := HandleConcertCreated(prev, concert);
    var k := FindById(prev, concert.id);
    if k >= 0 {
      assert forall j :: 0 <= j < k ==> once[j].id != concert.id;
      assert FindById(once, concert.id) == k;
    } else {
      assert FindById(once, concert.id) == 0;
    }
  }
}

=== FILE: base64.dfy ===
/** Base64 of a byte string (section 4 of RFC 4648, what `btoa` computes on a
    byte-per-character string), the URL-safe unpadded variant (section 5 of
    RFC 4648, used by Appendix A of RFC 7636), and the character replacement
    that turns the first into the second. */
module Base64 {

  newtype byte = x: int | 0 <= x < 256

  /** The 64 characters for values 0..63, with `c62` and `c63` as the last two. */
  function Alphabet(c62: char, c63: char): (a: string)
    ensures |a| == 64
    ensures forall i :: 0 <= i < 26 ==> a[i] == (('A' as int) + i) as char
    ensures forall i :: 26 <= i < 52 ==> a[i] == (('a' as int) + i - 26) as char
    ensures forall i :: 52 <= i < 62 ==> a[i] == (('0' as int) + i - 52) as char
    ensures a[62] == c62 && a[63] == c63
  {
    seq(64, i requires 0 <= i < 64 =>
      if i < 26 then (('A' as int) + i) as char
      else if i < 52 then (('a' as int) + i - 26) as char
      else if i < 62 then (('0' as int) + i - 52) as char
      else if i == 62 then c62 else c63)
  }

  function StdAlphabet(): string { Alphabet('+', '/') }
  function UrlAlphabet(): string { Alphabet('-', '_') }

  function Pad(k: nat): string
    requires k < 3
  {
    if k == 0 then "" else if k == 1 then "==" else "="
  }

  /** Encodes three bytes at a time; the final one or two bytes give two or
      three characters, followed by `=` padding when `pad` is set. */
  function Encode(b: seq<byte>, alphabet: string, pad: bool): (s: string)
    requires |alphabet| == 64
    decreases |b|
  {
    if |b| == 0 then ""
    else if |b| == 1 then
      [alphabet[b[0] as int / 4], alphabet[(b[0] as int % 4) * 16]] + (if pad then "==" else "")
    else if |b| == 2 then
      [alphabet[b[0] as int / 4], alphabet[(b[0] as int % 4) * 16 + b[1] as int / 16],
       alphabet[(b[1] as int % 16) * 4]] + (if pad then "=" else "")
    else
      [alphabet[b[0] as int / 4], alphabet[(b[0] as int % 4) * 16 + b[1] as int / 16],
       alphabet[(b[1] as int % 16) * 4 + b[2] as int / 64], alphabet[b[2] as int % 64]]
      + Encode(b[3..], alphabet, pad)
  }

  /** `btoa` over the bytes: standard alphabet, padded to a multiple of four. */
  function Base64Std(b: seq<byte>): string {
    Encode(b, StdAlphabet(), true)
  }

  /** The reference encoding of section 5 of RFC 4648 without padding. */
  function Base64UrlNoPad(b: seq<byte>): string {
    Encode(b, UrlAlphabet(), false)
  }

  /** Padding only ever appears at the end, and only to fill the last group. */
  lemma {:induction false} EncodePadding(b: seq<byte>, alphabet: string)
    requires |alphabet| == 64
    ensures Encode(b, alphabet, true) == Encode(b, alphabet, false) + Pad(|b| % 3)
    ensures |Encode(b, alphabet, false)| == (4 * |b| + 2) / 3
    ensures forall i :: 0 <= i < |Encode(b, alphabet, false)| ==> Encode(b, alphabet, false)[i] in alphabet
    decreases |b|
  {
    if |b| >= 3 {
      EncodePadding(b[3..], alphabet);
      assert |b[3..]| % 3 == |b| % 3;
    }
  }

  /** The url-safe replacement on one character: `+` → `-`, `/` → `_`. */
  function UrlSafeChar(c: char): char {
    if c == '+' then '-' else if c == '/' then '_' else c
  }

  function MapUrlSafe(s: string): (r: string)
    ensures |r| == |s|
    ensures forall i :: 0 <= i < |s| ==> r[i] == UrlSafeChar(s[i])
  {
    seq(|s|, i requires 0 <= i < |s| => UrlSafeChar(s[i]))
  }

  /** `s.replace(/=+$/, '')`: drops the maximal run of trailing `=`. */
  function StripTrailingPadding(s: string): (r: string)
    ensures |r| <= |s|
    ensures r == s[..|r|]
    ensures |r| == 0 || r[|r| - 1] != '='
    ensures forall i :: |r| <= i < |s| ==> s[i] == '='
    decreases |s|
  {
    if |s| > 0 && s[|s| - 1] == '=' then StripTrailingPadding(s[..|s| - 1]) else s
  }

  /** The post-processing of `generateCodeChallenge`. */
  function ToBase64Url(s: string): (r: string)
    ensures '+' !in r && '/' !in r
    ensures |r| == 0 || r[|r| - 1] != '='
    ensures |r| <= |s|
  {
    StripTrailingPadding(MapUrlSafe(s))
  }

  lemma {:induction false} MapUrlSafeEncode(b: seq<byte>)
    ensures MapUrlSafe(Encode(b, StdAlphabet(), true)) == Encode(b, UrlAlphabet(), true)
    decreases |b|
  {
    var std := StdAlphabet();
    var url := UrlAlphabet();
    assert forall i :: 0 <= i < 64 ==> UrlSafeChar(std[i]) == url[i];
    if |b| >= 3 {
      MapUrlSafeEncode(b[3..]);
      var head := [std[b[0] as int / 4], std[(b[0] as int % 4) * 16 + b[1] as int / 16],
                   std[(b[1] as int % 16) * 4 + b[2] as int / 64], std[b[2] as int % 64]];
      var tail := Encode(b[3..], std, true);
      assert Encode(b, std, true) == head + tail;
      assert MapUrlSafe(head + tail) == MapUrlSafe(head) + MapUrlSafe(tail);
    }
  }

  lemma StripPaddingAfter(x: string, p: string)
    requires |x| == 0 || x[|x| - 1] != '='
    requires forall i :: 0 <= i < |p| ==> p[i] == '='
    ensures StripTrailingPadding(x + p) == x
    decreases |p|
  {
    if |p| > 0 {
      assert (x + p)[..|x + p| - 1] == x + p[..|p| - 1];
      StripPaddingAfter(x, p[..|p| - 1]);
    } else {
      assert x + p == x;
    }
  }

  /** Replacing `+` and `/` and stripping the padding of `btoa`'s output gives
      exactly the unpadded base64url encoding of the same bytes. */
  lemma {:induction false} ChallengeEncoding(b: seq<byte>)
    ensures ToBase64Url(Base64Std(b)) == Base64UrlNoPad(b)
    ensures |Base64UrlNoPad(b)| == (4 * |b| + 2) / 3
  {
    var url := UrlAlphabet();
    MapUrlSafeEncode(b);
    EncodePadding(b, url);
    var x := Encode(b, url, false);
    assert '=' !in url;
    if |x| > 0 {
      assert x[|x| - 1] in url;
    }
    StripPaddingAfter(x, Pad(|b| % 3));
  }

  /** A SHA-256 digest (32 bytes) gives the 43-character challenge of
      section 4.2 of RFC 7636. */
  lemma DigestChallengeLength(b: seq<byte>)
    requires |b| == 32
    ensures |ToBase64Url(Base64Std(b))| == 43
  {
    ChallengeEncoding(b);
  }
}

=== FILE: concert_builder.dfy ===
/** `buildConcertFromSetlist`: turns a setlist.fm setlist into a playable
    concert: flatten the sets, look every song up, keep the ones found under
    fresh ids, and derive id, title, location and description. */
module ConcertBuilder {
  import opened Wrappers
  import opened Types
  import opened Text
  import opened SpotifySearch

  /* ---------------------------------------------------------------------------
     The setlist.fm shape (the fields the builder reads)
     ------------------------------------------------------------------------- */

  datatype FmArtist = FmArtist(name: string, sortName: string)
  datatype FmCity = FmCity(name: string, state: Option<string>, stateCode: Option<string>, countryName: string)
  datatype FmVenue = FmVenue(name: string, city: FmCity)
  /** A set: its songs' names, in order. */
  datatype FmSet = FmSet(songs: seq<string>)
  datatype FmSetlist = FmSetlist(
    eventDate: string,
    artist: FmArtist,
    venue: FmVenue,
    tour: Option<string>,
    sets: seq<FmSet>,
    info: Option<string>)

  const PosterImage: string := "https://images.unsplash.com/photo-1470229722913-7c0e2dbbafd3?w=800&q=80"
  const VenueImage: string := "https://images.unsplash.com/photo-1514320291840-2e0a9bf2a9ae?w=1600&q=80"

  /* ---------------------------------------------------------------------------
     Flattening
     ------------------------------------------------------------------------- */

  function SongCount(sets: seq<FmSet>): nat
    decreases |sets|
  {
    if |sets| == 0 then 0 else |sets[0].songs| + SongCount(sets[1..])
  }

  /** The songs of one set, each with the artist's name. */
  function SetQueries(fmSet: FmSet, artistName: string): (r: seq<SongQuery>)
    ensures |r| == |fmSet.songs|
    ensures forall i :: 0 <= i < |r| ==> r[i] == SongQuery(fmSet.songs[i], artistName)
  {
    seq(|fmSet.songs|, i requires 0 <= i < |fmSet.songs| => SongQuery(fmSet.songs[i], artistName))
  }

  /** `sets.flatMap(set => set.song.map(...))`. */
  function Flatten(sets: seq<FmSet>, artistName: string): (r: seq<SongQuery>)
    ensures |r| == SongCount(sets)
    ensures forall i :: 0 <= i < |r| ==> r[i].artistName == artistName
    decreases |sets|
  {
    if |sets| == 0 then [] else SetQueries(sets[0], artistName) + Flatten(sets[1..], artistName)
  }

  /** Flattening keeps the sets' order: two runs of sets flatten to the two
      flattenings one after the other. */
  lemma {:induction false} FlattenAppend(a: seq<FmSet>, b: seq<FmSet>, artistName: string)
    ensures Flatten(a + b, artistName) == Flatten(a, artistName) + Flatten(b, artistName)
    decreases |a|
  {
    if |a| == 0 {
      assert a + b == b;
    } else {
      assert (a + b)[0] == a[0] && (a + b)[1..] == a[1..] + b;
      FlattenAppend(a[1..], b, artistName);
    }
  }

  /** Song `i` of set `k` comes right after the songs of the sets before it,
      paired with the artist's name: the flattening lists every song of every
      set, set by set and in order within a set. */
  lemma {:induction false} FlattenAt(sets: seq<FmSet>, artistName: string, k: nat, i: nat)
    requires k < |sets| && i < |sets[k].songs|
    ensures SongCount(sets[..k]) + i < |Flatten(sets, artistName)|
    ensures Flatten(sets, artistName)[SongCount(sets[..k]) + i] == SongQuery(sets[k].songs[i], artistName)
    decreases k
  {
    if k == 0 {
      assert sets[..0] == [];
    } else {
      FlattenAt(sets[1..], artistName, k - 1, i);
      assert sets[..k][0] == sets[0] && sets[..k][1..] == sets[1..][..k - 1];
    }
  }

  /** A single set flattens to its own songs. */
  lemma FlattenSingle(fmSet: FmSet, artistName: string)
    ensures Flatten([fmSet], artistName) == SetQueries(fmSet, artistName)
  {
    assert [fmSet][1..] == [];
  }

  /** No song at all exactly when every set is empty. */
  lemma {:induction false} FlattenEmpty(sets: seq<FmSet>, artistName: string)
    ensures |Flatten(sets, artistName)| == 0 <==> forall s :: 0 <= s < |sets| ==> |sets[s].songs| == 0
    decreases |sets|
  {
    if |sets| > 0 {
      FlattenEmpty(sets[1..], artistName);
      assert forall s :: 1 <= s < |sets| ==> sets[s] == sets[1..][s - 1];
    }
  }

  /* ---------------------------------------------------------------------------
     Keeping the found songs
     ------------------------------------------------------------------------- */

  /** `filter(track => track.uri)`: the matches with a non-empty URI, in order. */
  function Found(matches: seq<SongMatch>): (r: seq<SongMatch>)
    ensures |r| <= |matches|
    ensures forall j :: 0 <= j < |r| ==> Truthy(r[j].uri) && r[j] in matches
    ensures (forall i :: 0 <= i < |matches| ==> Truthy(matches[i].uri)) ==> r == matches
    ensures (forall i :: 0 <= i < |matches| ==> !Truthy(matches[i].uri)) <==> |r| == 0
    decreases |matches|
  {
    if |matches| == 0 then []
    else if Truthy(matches[0].uri) then [matches[0]] + Found(matches[1..])
    else Found(matches[1..])
  }

  lemma {:induction false} FoundAppend(a: seq<SongMatch>, b: seq<SongMatch>)
    ensures Found(a + b) == Found(a) + Found(b)
    decreases |a|
  {
    if |a| == 0 {
      assert a + b == b;
    } else {
      assert (a + b)[0] == a[0] && (a + b)[1..] == a[1..] + b;
      FoundAppend(a[1..], b);
    }
  }

  /** The found songs as setlist entries numbered "1", "2", ... in order. */
  function Renumber(found: seq<SongMatch>): (songs: seq<Song>)
    requires forall j :: 0 <= j < |found| ==> found[j].uri.Some?
    ensures |songs| == |found|
    ensures forall j :: 0 <= j < |songs| ==>
      songs[j] == Song(NatToString(j + 1), found[j].name, found[j].uri.value, found[j].durationMs)
  {
    seq(|found|, j requires 0 <= j < |found| =>
      Song(NatToString(j + 1), found[j].name, found[j].uri.value, found[j].durationMs))
  }

  /** The kept songs have pairwise different ids, each the decimal of its position. */
  lemma RenumberIdsDistinct(found: seq<SongMatch>)
    requires forall j :: 0 <= j < |found| ==> found[j].uri.Some?
    ensures forall j, k :: 0 <= j < |found| && 0 <= k < |found| && Renumber(found)[j].id == Renumber(found)[k].id ==> j == k
    ensures forall j :: 0 <= j < |found| ==> ParseDigits(Renumber(found)[j].id) == j + 1
  {
    var songs := Renumber(found);
    forall j, k | 0 <= j < |found| && 0 <= k < |found| && songs[j].id == songs[k].id
      ensures j == k
    {
      NatToStringInjective(j + 1, k + 1);
    }
    forall j | 0 <= j < |found|
      ensures ParseDigits(songs[j].id) == j + 1
    {
      ParseNatToString(j + 1);
    }
  }

  /* ---------------------------------------------------------------------------
     Derived fields
     ------------------------------------------------------------------------- */

  /** "city, stateCode" (or the state's name) when a state is known, else "city, country". */
  function Location(city: FmCity): (s: string)
    ensures Truthy(city.state) && Truthy(city.stateCode) ==> s == city.name + ", " + city.stateCode.value
    ensures Truthy(city.state) && !Truthy(city.stateCode) ==> s == city.name + ", " + city.state.value
    ensures !Truthy(city.state) ==> s == city.name + ", " + city.countryName
  {
    if Truthy(city.state) then
      city.name + ", " + (if Truthy(city.stateCode) then city.stateCode.value else city.state.value)
    else city.name + ", " + city.countryName
  }

  function GeneratedDescription(artistName: string, venueName: string, formattedDate: string, count: nat): string {
    artistName + " performed at " + venueName + " on " + formattedDate + ". "
    + NatToString(count) + " songs were played during this concert."
  }

  function Description(info: Option<string>, artistName: string, venueName: string, formattedDate: string, count: nat): (s: string)
    ensures Truthy(info) ==> s == info.value
    ensures !Truthy(info) ==> s == GeneratedDescription(artistName, venueName, formattedDate, count)
  {
    if Truthy(info) then info.value else GeneratedDescription(artistName, venueName, formattedDate, count)
  }

  /** The generated sentence names the kept-song count, which can be read back from it. */
  lemma GeneratedDescriptionCount(artistName: string, venueName: string, formattedDate: string, count: nat)
    ensures var prefix := artistName + " performed at " + venueName + " on " + formattedDate + ". ";
            var d := GeneratedDescription(artistName, venueName, formattedDate, count);
            var digits := NatToString(count);
            && d[..|prefix|] == prefix
            && d[|prefix|..|prefix| + |digits|] == digits
            && ParseDigits(d[|prefix|..|prefix| + |digits|]) == count
  {
    ParseNatToString(count);
  }

  function ConcertId(sortName: string, venueName: string, eventDate: string): string {
    Slug(sortName) + "-" + Slug(venueName) + "-" + eventDate
  }

  /** On ASCII names the id keeps every character's position: the two slugs
      have the names' lengths and are followed by the date as given. */
  lemma ConcertIdShape(sortName: string, venueName: string, eventDate: string)
    requires IsAscii(sortName) && IsAscii(venueName)
    ensures var id := ConcertId(sortName, venueName, eventDate);
            && |id| == |sortName| + |venueName| + |eventDate| + 2
            && id[|sortName|] == '-' && id[|sortName| + 1 + |venueName|] == '-'
            && id[|sortName| + |venueName| + 2..] == eventDate
            && (forall i :: 0 <= i < |sortName| ==> IsSlugChar(id[i]))
            && (forall i :: |sortName| < i < |sortName| + 1 + |venueName| ==> IsSlugChar(id[i]))
  {
    SlugAscii(sortName);
    SlugAscii(venueName);
  }

  function Title(tour: Option<string>, venueName: string): (s: string)
    ensures Truthy(tour) ==> s == tour.value
    ensures !Truthy(tour) ==> s == "Live at " + venueName
  {
    if Truthy(tour) then tour.value else "Live at " + venueName
  }

  /* ---------------------------------------------------------------------------
     The builder
     ------------------------------------------------------------------------- */

  /** `buildConcertFromSetlist` with the search endpoint `api` and the
      `toLocaleDateString` rendering of the event date as `formattedDate`. */
  function BuildConcert(api: SearchApi, setlist: FmSetlist, formattedDate: string): (r: Option<Concert>)
    // no songs in the setlist, or none of them found: null
    ensures SongCount(setlist.sets) == 0 ==> r.None?
    ensures var found := Found(SearchSetlist(api, Flatten(setlist.sets, setlist.artist.name)));
            r.Some? <==> |found| > 0
    ensures r.Some? ==>
      var found := Found(SearchSetlist(api, Flatten(setlist.sets, setlist.artist.name)));
      var c := r.value;
      && c.setlist == Renumber(found)
      && c.id == ConcertId(setlist.artist.sortName, setlist.venue.name, setlist.eventDate)
      && c.title == Title(setlist.tour, setlist.venue.name)
      && c.artist == setlist.artist.name && c.venue == setlist.venue.name && c.date == formattedDate
      && c.location == Location(setlist.venue.city)
      && c.description == Description(setlist.info, setlist.artist.name, setlist.venue.name, formattedDate, |found|)
      && c.attendance.None? && c.posterImage == PosterImage && c.venueImage == VenueImage
    // every kept song has a URI
    ensures r.Some? ==> forall j :: 0 <= j < |r.value.setlist| ==> r.value.setlist[j].spotifyUri != ""
  {
    var queries := Flatten(setlist.sets, setlist.artist.name);
    if |queries| == 0 then None
    else
      var found := Found(SearchSetlist(api, queries));
      if |found| == 0 then None
      else
        var venue := setlist.venue;
        Some(Concert(
          ConcertId(setlist.artist.sortName, venue.name, setlist.eventDate),
          Title(setlist.tour, venue.name),
          setlist.artist.name,
          venue.name,
          formattedDate,
          Location(venue.city),
          None,
          Description(setlist.info, setlist.artist.name, venue.name, formattedDate, |found|),
          PosterImage,
          VenueImage,
          Renumber(found)))
  }

  /** When every song is found, the concert has one entry per song of the
      setlist, named after it, in the order of the sets. */
  lemma AllFoundKeepsEverySong(api: SearchApi, setlist: FmSetlist, formattedDate: string)
    requires SongCount(setlist.sets) > 0
    requires var queries := Flatten(setlist.sets, setlist.artist.name);
             forall i :: 0 <= i < |queries| ==> Truthy(SearchSetlist(api, queries)[i].uri)
    ensures var queries := Flatten(setlist.sets, setlist.artist.name);
            && BuildConcert(api, setlist, formattedDate).Some?
            && |BuildConcert(api, setlist, formattedDate).value.setlist| == |queries|
            && forall i :: 0 <= i < |queries| ==> BuildConcert(api, setlist, formattedDate).value.setlist[i].title == queries[i].name
  {
    var queries := Flatten(setlist.sets, setlist.artist.name);
    var matches := SearchSetlist(api, queries);
    assert Found(matches) == matches;
  }
}

=== FILE: concert_player.dfy ===
/** The playback view of `ConcertPlayer`: the `player_state_changed`
    reconciler that maps the SDK's reported track back to a setlist index,
    and the local play/pause/next/previous handlers. The applause cue of the
    audio-effects hook is modelled as a counter of fired cues. */
module ConcertPlayer {
  import opened Wrappers
  import opened Types
  import SP = SpotifyPlayer

  /** The part of the SDK's playback state the handler reads:
      `track_window.current_track.uri` and `paused`. */
  datatype Report = Report(uri: string, paused: bool)

  /** The component state: current song index, playing flag, the number of
      applause cues fired so far, and the player binding it drives. */
  datatype View = View(index: int, isPlaying: bool, applause: nat, binding: SP.Binding)

  /** `setlist.findIndex(song => song.spotifyUri === uri)`: exact equality,
      first match, -1 when there is none. */
  function FindUri(setlist: seq<Song>, uri: string): (k: int)
    ensures -1 <= k < |setlist|
    ensures k >= 0 ==> setlist[k].spotifyUri == uri
    ensures forall j :: 0 <= j < |setlist| && (k < 0 || j < k) ==> setlist[j].spotifyUri != uri
    decreases |setlist|
  {
    if |setlist| == 0 then -1
    else if setlist[0].spotifyUri == uri then 0
    else
      var k := FindUri(setlist[1..], uri);
      if k < 0 then -1 else k + 1
  }

  /** The `player_state_changed` handler. */
  function OnStateChanged(setlist: seq<Song>, v: View, state: Option<Report>): (r: View)
    // a null state changes nothing
    ensures state.None? ==> r == v
    // every reported state sets the playing flag, found or not
    ensures state.Some? ==> r.isPlaying == !state.value.paused
    ensures r.binding == v.binding
    // an unknown track leaves the index alone and fires nothing
    ensures state.Some? && (forall j :: 0 <= j < |setlist| ==> setlist[j].spotifyUri != state.value.uri) ==>
      r.index == v.index && r.applause == v.applause
    // a known track becomes current: the first setlist entry with that exact URI
    ensures state.Some? ==> forall j :: (0 <= j < |setlist| && setlist[j].spotifyUri == state.value.uri
      && (forall i :: 0 <= i < j ==> setlist[i].spotifyUri != state.value.uri)) ==> r.index == j
    // the index only ever moves to a matching entry
    ensures r.index != v.index ==> state.Some? && 0 <= r.index < |setlist| && setlist[r.index].spotifyUri == state.value.uri
    // applause fires once exactly on a forward move, never on a backward one
    ensures r.applause == if r.index > v.index then v.applause + 1 else v.applause
  {
    if state.None? then v
    else
      var v1 := v.(isPlaying := !state.value.paused);
      var k := FindUri(setlist, state.value.uri);
      if k != -1 && k != v.index then
        v1.(index := k, applause := if k > v.index then v.applause + 1 else v.applause)
      else v1
  }

  /** Re-delivering a state that has just been applied (a duplicate push) is a no-op. */
  lemma ReapplyIsNoOp(setlist: seq<Song>, v: View, state: Option<Report>)
    ensures var once := OnStateChanged(setlist, v, state);
            OnStateChanged(setlist, once, state) == once
  {
  }

  /** A sequence of notifications applied in order. */
  function Run(setlist: seq<Song>, v: View, states: seq<Option<Report>>): View
    decreases |states|
  {
    if |states| == 0 then v else Run(setlist, OnStateChanged(setlist, v, states[0]), states[1..])
  }

  /** Each notification delivered twice in a row (two channels reporting the same state). */
  function Stutter(states: seq<Option<Report>>): (d: seq<Option<Report>>)
    ensures |d| == 2 * |states|
    decreases |states|
  {
    if |states| == 0 then [] else [states[0], states[0]] + Stutter(states[1..])
  }

  /** Duplicated notifications converge on the same view with no extra applause. */
  lemma {:induction false} RunStutter(setlist: seq<Song>, v: View, states: seq<Option<Report>>)
    ensures Run(setlist, v, Stutter(states)) == Run(setlist, v, states)
    decreases |states|
  {
    if |states| > 0 {
      var d := Stutter(states);
      var once := OnStateChanged(setlist, v, states[0]);
      ReapplyIsNoOp(setlist, v, states[0]);
      assert d[0] == states[0] && d[1..][0] == states[0];
      assert d[1..][1..] == Stutter(states[1..]);
      RunStutter(setlist, once, states[1..]);
    }
  }

  /** The non-null notifications of a sequence, in order. */
  function NonNull(states: seq<Option<Report>>): (s: seq<Option<Report>>)
    ensures |s| <= |states|
    ensures forall i :: 0 <= i < |s| ==> s[i].Some?
    decreases |states|
  {
    if |states| == 0 then []
    else if states[0].None? then NonNull(states[1..])
    else [states[0]] + NonNull(states[1..])
  }

  /** Null notifications can be dropped from any sequence without changing the outcome. */
  lemma {:induction false} RunIgnoresNulls(setlist: seq<Song>, v: View, states: seq<Option<Report>>)
    ensures Run(setlist, v, NonNull(states)) == Run(setlist, v, states)
    decreases |states|
  {
    if |states| > 0 {
      var n := NonNull(states);
      if states[0].None? {
        RunIgnoresNulls(setlist, v, states[1..]);
      } else {
        assert n[0] == states[0] && n[1..] == NonNull(states[1..]);
        RunIgnoresNulls(setlist, OnStateChanged(setlist, v, states[0]), states[1..]);
      }
    }
  }

  /** Over any sequence of notifications, a cue is fired at most once per
      notification and only by non-null ones, and an index that starts in the
      setlist stays in it. */
  lemma {:induction false} RunBounds(setlist: seq<Song>, v: View, states: seq<Option<Report>>)
    ensures Run(setlist, v, states).applause <= v.applause + |NonNull(states)|
    ensures 0 <= v.index < |setlist| ==> 0 <= Run(setlist, v, states).index < |setlist|
    ensures Run(setlist, v, states).binding == v.binding
    decreases |states|
  {
    if |states| > 0 {
      RunBounds(setlist, OnStateChanged(setlist, v, states[0]), states[1..]);
    }
  }

  /** `handlePlay`: sends every song's URI in setlist order (empty ones
      included), then sets the playing flag whether or not a request went out. */
  function HandlePlay(setlist: seq<Song>, v: View): (r: View)
    ensures r.isPlaying
    ensures r.index == v.index && r.applause == v.applause
    ensures r.binding == SP.Play(v.binding, Uris(setlist))
  {
    v.(binding := SP.Play(v.binding, Uris(setlist)), isPlaying := true)
  }

  /** Pressing play either sends nothing or sends one play request carrying
      the setlist's URIs in setlist order. */
  lemma HandlePlaySendsSetlist(setlist: seq<Song>, v: View)
    ensures var r := HandlePlay(setlist, v);
            r.binding.log == v.binding.log
            || (|r.binding.log| == |v.binding.log| + 1 && r.binding.log[..|v.binding.log|] == v.binding.log
                && r.binding.log[|v.binding.log|].PlayRequest?
                && var uris := r.binding.log[|v.binding.log|].uris;
                   |uris| == |setlist| && forall i :: 0 <= i < |setlist| ==> uris[i] == setlist[i].spotifyUri)
  {
  }

  /** `handlePause`: delegates a pause and clears the playing flag. */
  function HandlePause(v: View): (r: View)
    ensures !r.isPlaying && r.index == v.index && r.applause == v.applause
    ensures r.binding == SP.Delegate(v.binding, SP.Pause)
  {
    v.(binding := SP.DoPause(v.binding), isPlaying := false)
  }

  /** `handleNext`: delegates a skip, fires the cue unconditionally (even on
      the last song) and moves to `min(index + 1, length - 1)`. */
  function HandleNext(setlist: seq<Song>, v: View): (r: View)
    ensures r.applause == v.applause + 1
    ensures r.index <= v.index + 1 && r.index <= |setlist| - 1
    ensures r.index == v.index + 1 || r.index == |setlist| - 1
    ensures 0 <= v.index < |setlist| ==> 0 <= r.index < |setlist|
    ensures r.isPlaying == v.isPlaying
    ensures r.binding == SP.Delegate(v.binding, SP.NextTrack)
  {
    var n := |setlist|;
    v.(binding := SP.DoNextTrack(v.binding),
       applause := v.applause + 1,
       index := if v.index + 1 < n - 1 then v.index + 1 else n - 1)
  }

  /** `handlePrevious`: delegates a skip back and moves to `max(index - 1, 0)`; never fires the cue. */
  function HandlePrevious(setlist: seq<Song>, v: View): (r: View)
    ensures r.applause == v.applause
    ensures r.index >= v.index - 1 && r.index >= 0
    ensures r.index == v.index - 1 || r.index == 0
    ensures 0 <= v.index < |setlist| ==> 0 <= r.index < |setlist|
    ensures r.isPlaying == v.isPlaying
    ensures r.binding == SP.Delegate(v.binding, SP.PreviousTrack)
  {
    v.(binding := SP.DoPreviousTrack(v.binding), index := if v.index - 1 > 0 then v.index - 1 else 0)
  }

  /** A push reporting the third song while the first is current moves to it
      with one cue; the same state reported again, any number of times, changes
      nothing more. */
  lemma ForwardJumpFiresOnce(a: Song, b: Song, c: Song, v: View, n: nat)
    requires a.spotifyUri != c.spotifyUri && b.spotifyUri != c.spotifyUri
    requires v.index == 0 && n >= 1
    ensures var st := Some(Report(c.spotifyUri, false));
            var r := Run([a, b, c], v, seq(n, _ => st));
            r.index == 2 && r.applause == v.applause + 1 && r.isPlaying
  {
    var st := Some(Report(c.spotifyUri, false));
    var setlist := [a, b, c];
    assert setlist[0] == a && setlist[1] == b && setlist[2] == c;
    assert FindUri(setlist, c.spotifyUri) == 2;
    RepeatedIsOnce(setlist, v, st, n - 1);
  }

  /** The same notification delivered any number of times acts as one delivery. */
  lemma {:induction false} RepeatedIsOnce(setlist: seq<Song>, v: View, state: Option<Report>, k: nat)
    ensures Run(setlist, v, seq(k + 1, _ => state)) == OnStateChanged(setlist, v, state)
    decreases k
  {
    var once := OnStateChanged(setlist, v, state);
    assert seq(k + 1, _ => state)[1..] == seq(k, _ => state);
    if k > 0 {
      ReapplyIsNoOp(setlist, v, state);
      RepeatedIsOnce(setlist, once, state, k - 1);
    } else {
      assert Run(setlist, once, []) == once;
    }
  }
}

=== FILE: enrich.dfy ===
/** `enrichConcertWithSpotify`: fills in missing track URIs of a concert's
    setlist by searching with up to three query strategies per song. The
    per-song searches run concurrently in the source; they are independent
    and are taken here in setlist order. */
module Enrich {
  import opened Wrappers
  import opened Types
  import opened Text
  import opened SpotifySearch

  const TrackUriPrefix: string := "spotify:track:"

  /** Some song has no URI yet. */
  predicate NeedsEnrichment(c: Concert) {
    exists i :: 0 <= i < |c.setlist| && c.setlist[i].spotifyUri == ""
  }

  function Quoted(s: string): string {
    "\"" + s + "\""
  }

  /** The three queries, most specific first: quoted field filters, bare
      field filters, then title and artist as plain words. */
  function Strategies(title: string, artist: string): (qs: seq<string>)
    ensures |qs| == 3
    ensures qs[0] == "track:" + Quoted(title) + " artist:" + Quoted(artist)
    ensures qs[1] == "track:" + title + " artist:" + artist
    ensures qs[2] == title + " " + artist
  {
    ["track:" + Quoted(title) + " artist:" + Quoted(artist),
     "track:" + title + " artist:" + artist,
     title + " " + artist]
  }

  /** Tries the queries in order and stops at the first one that finds a
      track; returns that track (or None) and the queries actually sent. */
  function FirstHit(api: SearchApi, qs: seq<string>): (r: (Option<Track>, seq<string>))
    ensures |r.1| <= |qs| && r.1 == qs[..|r.1|]
    ensures |qs| > 0 ==> |r.1| >= 1
    // a query is only sent after every earlier one missed
    ensures forall k :: 0 <= k < |r.1| - 1 ==> SearchTrack(api, qs[k]).None?
    ensures r.0.Some? ==> |r.1| >= 1 && r.0 == SearchTrack(api, qs[|r.1| - 1])
    ensures r.0.None? <==> forall k :: 0 <= k < |qs| ==> SearchTrack(api, qs[k]).None?
    ensures r.0.None? ==> r.1 == qs
    decreases |qs|
  {
    if |qs| == 0 then (None, [])
    else
      var t := SearchTrack(api, qs[0]);
      if t.Some? then (t, [qs[0]])
      else
        var rest := FirstHit(api, qs[1..]);
        (rest.0, [qs[0]] + rest.1)
  }

  /** One song of the setlist: returned unchanged, with no search, when it
      already has a track URI; otherwise the strategies run until one hits. */
  function EnrichSong(api: SearchApi, song: Song, artist: string): (r: (Song, seq<string>))
    ensures StartsWith(song.spotifyUri, TrackUriPrefix) ==> r == (song, [])
    ensures !StartsWith(song.spotifyUri, TrackUriPrefix) ==>
      1 <= |r.1| <= 3 && r.1 == Strategies(song.title, artist)[..|r.1|]
    // a hit takes URI and duration from the track and keeps id and title
    ensures r.0.id == song.id && r.0.title == song.title
    ensures forall k ::
              (0 <= k < 3 && !StartsWith(song.spotifyUri, TrackUriPrefix)
               && SearchTrack(api, Strategies(song.title, artist)[k]).Some?
               && (forall j :: 0 <= j < k ==> SearchTrack(api, Strategies(song.title, artist)[j]).None?))
              ==> (var t := SearchTrack(api, Strategies(song.title, artist)[k]).value;
                   |r.1| == k + 1 && r.0 == song.(spotifyUri := t.uri, durationMs := t.durationMs))
    // all three missing leaves the song as it was, after all three queries were sent
    ensures (forall k :: 0 <= k < 3 ==> SearchTrack(api, Strategies(song.title, artist)[k]).None?) ==> r.0 == song
    ensures !StartsWith(song.spotifyUri, TrackUriPrefix)
            && (forall k :: 0 <= k < 3 ==> SearchTrack(api, Strategies(song.title, artist)[k]).None?)
            ==> r.1 == Strategies(song.title, artist)
  {
    if StartsWith(song.spotifyUri, TrackUriPrefix) then (song, [])
    else
      var (track, sent) := FirstHit(api, Strategies(song.title, artist));
      match track
      case Some(t) => (song.(spotifyUri := t.uri, durationMs := t.durationMs), sent)
      case None => (song, sent)
  }

  /** The logs one after the other. */
  function Concat(logs: seq<seq<string>>): seq<string>
    decreases |logs|
  {
    if |logs| == 0 then [] else logs[0] + Concat(logs[1..])
  }

  /** The queries each song sends on its own, in setlist order. */
  function SongLogs(api: SearchApi, setlist: seq<Song>, artist: string): (r: seq<seq<string>>)
    ensures |r| == |setlist|
    ensures forall i :: 0 <= i < |setlist| ==> r[i] == EnrichSong(api, setlist[i], artist).1
  {
    seq(|setlist|, i requires 0 <= i < |setlist| => EnrichSong(api, setlist[i], artist).1)
  }

  /** Every song of a setlist, in order, with the queries of all of them. */
  function EnrichSetlist(api: SearchApi, setlist: seq<Song>, artist: string): (r: (seq<Song>, seq<string>))
    ensures |r.0| == |setlist|
    ensures forall i :: 0 <= i < |setlist| ==> r.0[i] == EnrichSong(api, setlist[i], artist).0
    // the queries are each song's own, song after song
    ensures r.1 == Concat(SongLogs(api, setlist, artist))
    ensures |r.1| <= 3 * |setlist|
    ensures (forall i :: 0 <= i < |setlist| ==> StartsWith(setlist[i].spotifyUri, TrackUriPrefix)) ==> r.1 == []
    decreases |setlist|
  {
    if |setlist| == 0 then ([], [])
    else
      var (head, sent) := EnrichSong(api, setlist[0], artist);
      var rest := EnrichSetlist(api, setlist[1..], artist);
      assert SongLogs(api, setlist, artist)[1..] == SongLogs(api, setlist[1..], artist);
      ([head] + rest.0, sent + rest.1)
  }

  /** `enrichConcertWithSpotify`: the concert with its setlist enriched, and
      the search queries it sent. */
  function EnrichConcert(api: SearchApi, c: Concert): (r: (Concert, seq<string>))
    // nothing to do: the concert itself, without a single search
    ensures !NeedsEnrichment(c) ==> r == (c, [])
    // only the setlist changes, song by song, keeping length and order
    ensures r.0 == c.(setlist := r.0.setlist)
    ensures |r.0.setlist| == |c.setlist|
    ensures NeedsEnrichment(c) ==> forall i :: 0 <= i < |c.setlist| ==> r.0.setlist[i] == EnrichSong(api, c.setlist[i], c.artist).0
    ensures NeedsEnrichment(c) ==> r.1 == Concat(SongLogs(api, c.setlist, c.artist))
    ensures |r.1| <= 3 * |c.setlist|
  {
    if !NeedsEnrichment(c) then (c, [])
    else
      var (songs, sent) := EnrichSetlist(api, c.setlist, c.artist);
      (c.(setlist := songs), sent)
  }

  /** The search only returns track URIs. */
  ghost predicate ReturnsTrackUris(api: SearchApi) {
    forall q :: SearchTrack(api, q).Some? ==> StartsWith(SearchTrack(api, q).value.uri, TrackUriPrefix)
  }

  lemma EnrichSongAgain(api: SearchApi, song: Song, artist: string)
    requires ReturnsTrackUris(api)
    ensures EnrichSong(api, EnrichSong(api, song, artist).0, artist).0 == EnrichSong(api, song, artist).0
  {
    var qs := Strategies(song.title, artist);
    if !StartsWith(song.spotifyUri, TrackUriPrefix) {
      var (track, sent) := FirstHit(api, qs);
      if track.Some? {
        assert SearchTrack(api, qs[|sent| - 1]).Some?;
      }
    }
  }

  /** When the search only ever answers with track URIs, enriching an
      enriched concert changes nothing: found songs are skipped and missed
      ones miss again. */
  lemma EnrichConcertAgain(api: SearchApi, c: Concert)
    requires ReturnsTrackUris(api)
    ensures EnrichConcert(api, EnrichConcert(api, c).0).0 == EnrichConcert(api, c).0
  {
    var once := EnrichConcert(api, c).0;
    if NeedsEnrichment(once) {
      var twice := EnrichConcert(api, once).0;
      forall i | 0 <= i < |once.setlist|
        ensures twice.setlist[i] == once.setlist[i]
      {
        if NeedsEnrichment(c) {
          EnrichSongAgain(api, c.setlist[i], c.artist);
        }
      }
    }
  }
}

=== FILE: enriched_concerts.dfy ===
/** `useEnrichedConcerts`: the effect that enriches the catalog once per
    access token, through a week-long cache in local storage. The clock,
    local storage and the search endpoint are inputs; the enrichment loop
    runs the concerts one after another with a pause between two of them. */
module EnrichedConcerts {
  import opened Wrappers
  import opened Types
  import SS = SpotifySearch
  import opened Enrich

  const CacheKey: string := "enriched_concerts_v1"
  const CacheExpiryDays: int := 7

  /** Seven days in milliseconds: 604,800,000. */
  const MaxAgeMs: int := CacheExpiryDays * 24 * 60 * 60 * 1000

  /** The stored JSON `{ data, timestamp }`. */
  datatype CacheBlob = CacheBlob(data: seq<Concert>, timestamp: int)

  /** What reading the cache key gives: nothing (null or the empty string),
      a parsed blob, or text whose parsing (or reading of `data.length`)
      throws, with the error's message. */
  datatype CacheRead = NoCache | Cached(blob: CacheBlob) | Corrupt(message: string)

  /** The cache answers for `n` concerts at time `now`: younger than seven
      days (strictly) and of the same length. */
  predicate CacheUsable(blob: CacheBlob, now: int, n: nat) {
    now - blob.timestamp < MaxAgeMs && |blob.data| == n
  }

  /* ---------------------------------------------------------------------------
     The sequential loop
     ------------------------------------------------------------------------- */

  /** The reference result of the loop: every concert enriched on its own. */
  function EnrichAll(api: SS.SearchApi, concerts: seq<Concert>): (r: seq<Concert>)
    ensures |r| == |concerts|
    ensures forall i :: 0 <= i < |concerts| ==> r[i] == EnrichConcert(api, concerts[i]).0
  {
    seq(|concerts|, i requires 0 <= i < |concerts| => EnrichConcert(api, concerts[i]).0)
  }

  /** The searches the loop sends, grouped by concert. */
  function SearchesOf(api: SS.SearchApi, concerts: seq<Concert>): (r: seq<seq<string>>)
    ensures |r| == |concerts|
    ensures forall i :: 0 <= i < |concerts| ==> r[i] == EnrichConcert(api, concerts[i]).1
  {
    seq(|concerts|, i requires 0 <= i < |concerts| => EnrichConcert(api, concerts[i]).1)
  }

  datatype Activity = Searches(queries: seq<string>) | Pause

  /** The `for` loop of the effect, over the per-concert enrichment `enrich`
      (the effect passes `enrichConcertWithSpotify` with its token): concert
      `i` is enriched after concert `i - 1` has finished, and a pause
      separates consecutive concerts. */
  method EnrichSequentially(enrich: Concert -> (Concert, seq<string>), concerts: seq<Concert>)
    returns (enriched: seq<Concert>, activity: seq<Activity>)
    ensures |enriched| == |concerts|
    ensures forall i :: 0 <= i < |concerts| ==> enriched[i] == enrich(concerts[i]).0
    ensures |activity| == if |concerts| == 0 then 0 else 2 * |concerts| - 1
    ensures forall i :: 0 <= i < |concerts| ==> activity[2 * i] == Searches(enrich(concerts[i]).1)
    ensures forall i :: 0 <= i < |concerts| - 1 ==> activity[2 * i + 1] == Pause
  {
    var n := |concerts|;
    enriched := [];
    activity := [];
    var i := 0;
    while i < n
      invariant 0 <= i <= n
      invariant |enriched| == i
      invariant forall j :: 0 <= j < i ==> enriched[j] == enrich(concerts[j]).0
      invariant |activity| == if i == n && n > 0 then 2 * i - 1 else 2 * i
      invariant forall j :: 0 <= j < i ==> activity[2 * j] == Searches(enrich(concerts[j]).1)
      invariant forall j :: 0 <= j < i && j < n - 1 ==> activity[2 * j + 1] == Pause
    {
      var result := enrich(concerts[i]);
      enriched := enriched + [result.0];
      activity := activity + [Searches(result.1)];
      if i < n - 1 {
        activity := activity + [Pause];
      }
      i := i + 1;
    }
  }

  /* ---------------------------------------------------------------------------
     The effect
     ------------------------------------------------------------------------- */

  /** The hook's three pieces of state. */
  datatype HookState = HookState(concerts: seq<Concert>, isEnriching: bool, error: Option<string>)

  function InitialHook(concerts: seq<Concert>): HookState {
    HookState(concerts, false, None)
  }

  /** The state after the effect has settled, the cache contents after it,
      and the searches it sent (grouped by concert). */
  datatype Outcome = Outcome(state: HookState, cache: CacheRead, searches: seq<seq<string>>)

  /** One run of the effect at time `now` with the cache as it is read;
      `writeError` is the message of a failing `setItem` (None when the
      write succeeds) and `writeTime` the clock at the write. */
  function RunEffect(
    st: HookState, concerts: seq<Concert>, accessToken: Option<string>, cache: CacheRead,
    now: int, api: SS.SearchApi, writeError: Option<string>, writeTime: int): (r: Outcome)
    // no token or nothing to enrich: the input list as it is
    ensures (!Truthy(accessToken) || |concerts| == 0) ==>
      r == Outcome(st.(concerts := concerts), cache, [])
    ensures !r.state.isEnriching || r.state.isEnriching == st.isEnriching
    ensures Truthy(accessToken) && |concerts| > 0 ==> !r.state.isEnriching
    // a fresh cache of the right length is used as it is, without searching
    ensures (Truthy(accessToken) && |concerts| > 0 && cache.Cached? && CacheUsable(cache.blob, now, |concerts|)) ==>
      r == Outcome(st.(concerts := cache.blob.data, isEnriching := false), cache, [])
    // an unreadable cache: the original list, its error, and no enrichment at all
    ensures (Truthy(accessToken) && |concerts| > 0 && cache.Corrupt?) ==>
      r == Outcome(HookState(concerts, false, Some(cache.message)), cache, [])
    // otherwise every concert is searched, and the cache is written only with the full result
    ensures (Truthy(accessToken) && |concerts| > 0 && (cache.NoCache? || (cache.Cached? && !CacheUsable(cache.blob, now, |concerts|)))) ==>
      && r.searches == SearchesOf(api, concerts)
      && (writeError.None? ==>
            r.state == HookState(EnrichAll(api, concerts), false, None)
            && r.cache == Cached(CacheBlob(EnrichAll(api, concerts), writeTime)))
      && (writeError.Some? ==>
            r.state == HookState(concerts, false, writeError) && r.cache == cache)
    // the list always has the input's length: a cache is only taken when its length matches
    ensures |r.state.concerts| == |concerts|
  {
    if !Truthy(accessToken) || |concerts| == 0 then Outcome(st.(concerts := concerts), cache, [])
    else
      match cache
      case Corrupt(message) => Outcome(HookState(concerts, false, Some(message)), cache, [])
      case Cached(blob) =>
        if CacheUsable(blob, now, |concerts|) then Outcome(st.(concerts := blob.data, isEnriching := false), cache, [])
        else EnrichAndStore(concerts, cache, api, writeError, writeTime)
      case NoCache => EnrichAndStore(concerts, cache, api, writeError, writeTime)
  }

  /** The part of the effect after a cache miss: enrich everything, then write
      the cache; a failing write falls back to the original list. */
  function EnrichAndStore(concerts: seq<Concert>, cache: CacheRead, api: SS.SearchApi, writeError: Option<string>, writeTime: int): Outcome {
    var enriched := EnrichAll(api, concerts);
    var searches := SearchesOf(api, concerts);
    match writeError
    case None => Outcome(HookState(enriched, false, None), Cached(CacheBlob(enriched, writeTime)), searches)
    case Some(message) => Outcome(HookState(concerts, false, Some(message)), cache, searches)
  }

  /** A run that wrote the cache makes every run in the following seven days
      (same concerts, any token) reuse its result without a single search. */
  lemma FreshCacheReused(
    concerts: seq<Concert>, token: Option<string>, cache: CacheRead, now: int, api: SS.SearchApi, writeTime: int,
    st: HookState, later: int, token2: Option<string>, api2: SS.SearchApi, writeError2: Option<string>, writeTime2: int)
    requires Truthy(token) && |concerts| > 0
    requires cache.NoCache? || (cache.Cached? && !CacheUsable(cache.blob, now, |concerts|))
    requires Truthy(token2) && writeTime <= later < writeTime + MaxAgeMs
    ensures var first := RunEffect(InitialHook(concerts), concerts, token, cache, now, api, None, writeTime);
            var second := RunEffect(st, concerts, token2, first.cache, later, api2, writeError2, writeTime2);
            second.state.concerts == first.state.concerts && second.searches == [] && second.cache == first.cache
  {
  }

  /** Once seven days have passed, or the catalog changed length, the same
      cache no longer answers and everything is searched again. */
  lemma StaleCacheReenriches(
    concerts: seq<Concert>, token: Option<string>, blob: CacheBlob, now: int, api: SS.SearchApi,
    st: HookState, writeError: Option<string>, writeTime: int)
    requires Truthy(token) && |concerts| > 0
    requires now - blob.timestamp >= MaxAgeMs || |blob.data| != |concerts|
    ensures RunEffect(st, concerts, token, Cached(blob), now, api, writeError, writeTime).searches == SearchesOf(api, concerts)
  {
  }
}

=== FILE: player_context.dfy ===
/** The shared player context: volume with mute memory, shuffle and repeat
    flags, and the repeat-aware navigation over the current concert. */
module PlayerContext {
  import opened Wrappers
  import opened Types

  datatype RepeatMode = Off | All | One

  datatype State = State(
    concert: Option<Concert>,
    isPlaying: bool,
    index: int,
    volume: int,
    isMuted: bool,
    isShuffled: bool,
    repeat: RepeatMode,
    previousVolume: int)

  const DefaultVolume: int := 80

  /** The provider's initial state. */
  function Initial(): (s: State)
    ensures Valid(s) && s.concert.None? && !s.isPlaying && s.index == 0
  {
    State(None, false, 0, DefaultVolume, false, false, Off, DefaultVolume)
  }

  /** What every operation keeps: both volumes are percentages and a muted
      context is silent. */
  predicate Valid(s: State) {
    && 0 <= s.volume <= 100
    && 0 <= s.previousVolume <= 100
    && (s.isMuted ==> s.volume == 0)
  }

  /** The index points into the loaded concert's setlist. */
  predicate InRange(s: State) {
    s.concert.Some? ==> 0 <= s.index < |s.concert.value.setlist|
  }

  /** `setVolume`: stores the input clamped to [0, 100]; a positive result
      unmutes, zero leaves the mute flag as it was. */
  function SetVolume(s: State, newVolume: int): (r: State)
    ensures 0 <= r.volume <= 100
    ensures 0 <= newVolume <= 100 ==> r.volume == newVolume
    ensures newVolume < 0 ==> r.volume == 0
    ensures newVolume > 100 ==> r.volume == 100
    ensures r.volume > 0 ==> !r.isMuted
    ensures r.volume == 0 ==> r.isMuted == s.isMuted
    ensures r == s.(volume := r.volume, isMuted := r.isMuted)
    ensures Valid(s) ==> Valid(r)
  {
    var clamped := Max(0, Min(100, newVolume));
    s.(volume := clamped, isMuted := if clamped > 0 && s.isMuted then false else s.isMuted)
  }

  function Min(a: int, b: int): int { if a < b then a else b }
  function Max(a: int, b: int): int { if a > b then a else b }

  /** `toggleMute`: muting remembers the volume and silences; unmuting restores it. */
  function ToggleMute(s: State): (r: State)
    ensures r.isMuted == !s.isMuted
    ensures s.isMuted ==> r.volume == s.previousVolume && r.previousVolume == s.previousVolume
    ensures !s.isMuted ==> r.volume == 0 && r.previousVolume == s.volume
    ensures r == s.(volume := r.volume, isMuted := r.isMuted, previousVolume := r.previousVolume)
    ensures Valid(s) ==> Valid(r)
  {
    if s.isMuted then s.(volume := s.previousVolume, isMuted := false)
    else s.(previousVolume := s.volume, volume := 0, isMuted := true)
  }

  /** Muting and unmuting gives back the volume and the mute flag. From an
      unmuted state the remembered volume becomes the current one; from a
      muted (hence silent) state nothing changes at all. */
  lemma ToggleMuteTwice(s: State)
    requires Valid(s)
    ensures ToggleMute(ToggleMute(s)).volume == s.volume
    ensures ToggleMute(ToggleMute(s)).isMuted == s.isMuted
    ensures s.isMuted ==> ToggleMute(ToggleMute(s)) == s
    ensures !s.isMuted ==> ToggleMute(ToggleMute(s)) == s.(previousVolume := s.volume)
  {
  }

  function ToggleShuffle(s: State): (r: State)
    ensures r.isShuffled == !s.isShuffled
    ensures r == s.(isShuffled := r.isShuffled)
  {
    s.(isShuffled := !s.isShuffled)
  }

  lemma ToggleShuffleTwice(s: State)
    ensures ToggleShuffle(ToggleShuffle(s)) == s
  {
  }

  /** `cycleRepeatMode`: off → all → one → off. */
  function NextRepeatMode(m: RepeatMode): (r: RepeatMode)
    ensures r != m
    ensures m == Off ==> r == All
    ensures m == All ==> r == One
    ensures m == One ==> r == Off
  {
    match m
    case Off => All
    case All => One
    case One => Off
  }

  function CycleRepeatMode(s: State): (r: State)
    ensures r.repeat == NextRepeatMode(s.repeat)
    ensures r.repeat != s.repeat
    ensures r == s.(repeat := r.repeat)
  {
    s.(repeat := NextRepeatMode(s.repeat))
  }

  /** Three steps of the cycle return to the start, and every mode is visited. */
  lemma CycleRepeatModeThrice(s: State)
    ensures CycleRepeatMode(CycleRepeatMode(CycleRepeatMode(s))) == s
    ensures {s.repeat, CycleRepeatMode(s).repeat, CycleRepeatMode(CycleRepeatMode(s)).repeat} == {Off, All, One}
    // in the source's order, starting from the initial `off`
    ensures s.repeat == Off ==> CycleRepeatMode(s).repeat == All && CycleRepeatMode(CycleRepeatMode(s)).repeat == One
  {
  }

  /** `playNext`. */
  function PlayNext(s: State): (r: State)
    // nothing loaded, or repeat-one: stay
    ensures s.concert.None? || s.repeat == One ==> r == s
    // otherwise only the index and the playing flag can change
    ensures r == s.(index := r.index, isPlaying := r.isPlaying)
    ensures s.concert.Some? && s.repeat != One ==>
      var n := |s.concert.value.setlist|;
      && (s.index < n - 1 ==> r == s.(index := s.index + 1))
      && (s.index >= n - 1 && s.repeat == All ==> r == s.(index := 0))
      && (s.index >= n - 1 && s.repeat == Off ==> r == s.(isPlaying := false))
    ensures s.concert.Some? && |s.concert.value.setlist| >= 1 && InRange(s) ==> InRange(r)
  {
    if s.concert.None? || s.repeat == One then s
    else
      var n := |s.concert.value.setlist|;
      if s.index < n - 1 then s.(index := s.index + 1)
      else if s.repeat == All then s.(index := 0)
      else s.(isPlaying := false)
  }

  /** `playPrevious`: never touches the playing flag. */
  function PlayPrevious(s: State): (r: State)
    ensures s.concert.None? ==> r == s
    ensures r == s.(index := r.index)
    ensures s.concert.Some? ==>
      && (s.index > 0 ==> r.index == s.index - 1)
      && (s.index <= 0 && s.repeat == All ==> r.index == |s.concert.value.setlist| - 1)
      && (s.index <= 0 && s.repeat != All ==> r == s)
    ensures s.concert.Some? && |s.concert.value.setlist| >= 1 && InRange(s) ==> InRange(r)
  {
    if s.concert.None? then s
    else if s.index > 0 then s.(index := s.index - 1)
    else if s.repeat == All then s.(index := |s.concert.value.setlist| - 1)
    else s
  }

  /** `playSongAtIndex`: an index inside the setlist becomes current and
      starts playing; anything else is ignored. */
  function PlaySongAtIndex(s: State, k: int): (r: State)
    ensures s.concert.Some? && 0 <= k < |s.concert.value.setlist| ==> r == s.(index := k, isPlaying := true)
    ensures !(s.concert.Some? && 0 <= k < |s.concert.value.setlist|) ==> r == s
    ensures InRange(s) ==> InRange(r)
  {
    if s.concert.Some? && 0 <= k < |s.concert.value.setlist| then s.(index := k, isPlaying := true) else s
  }

  /** Navigation over a non-empty setlist keeps the index inside it, through
      any sequence of next, previous and jump requests. */
  datatype Nav = Next | Previous | Jump(k: int)

  function Navigate(s: State, navs: seq<Nav>): State
    decreases |navs|
  {
    if |navs| == 0 then s
    else
      var s1 := match navs[0]
        case Next => PlayNext(s)
        case Previous => PlayPrevious(s)
        case Jump(k) => PlaySongAtIndex(s, k);
      Navigate(s1, navs[1..])
  }

  lemma {:induction false} NavigateStaysInRange(s: State, navs: seq<Nav>)
    requires s.concert.Some? && |s.concert.value.setlist| >= 1 && InRange(s)
    ensures InRange(Navigate(s, navs))
    ensures Navigate(s, navs).concert == s.concert
    decreases |navs|
  {
    if |navs| > 0 {
      var s1 := match navs[0]
        case Next => PlayNext(s)
        case Previous => PlayPrevious(s)
        case Jump(k) => PlaySongAtIndex(s, k);
      NavigateStaysInRange(s1, navs[1..]);
    }
  }
}

=== FILE: spotify_auth.dfy ===
/** The authorization-code-with-PKCE client: verifier generation, the S256
    challenge, the authorization URL, the verifier kept in session storage,
    and the one-shot token exchange. Randomness, SHA-256 and the token
    endpoint are parameters. */
module SpotifyAuth {
  import opened Wrappers
  import opened Base64
  import Text

  /** The browser storage the login flow uses: the persisted access token
      (local storage), the pending verifier and the processed-code marker
      (session storage). */
  datatype Storage = Storage(accessToken: Option<string>, codeVerifier: Option<string>, processedCode: Option<string>)

  datatype Config = Config(clientId: string, redirectUri: string)

  const DefaultRedirectUri: string := "http://127.0.0.1:5173/callback"

  /** The client id and redirect URI from the build environment, with the
      source's fallbacks for a missing or empty variable. */
  function ResolveConfig(envClientId: Option<string>, envRedirectUri: Option<string>): (c: Config)
    ensures c.clientId == (if Truthy(envClientId) then envClientId.value else "")
    ensures c.redirectUri == (if Truthy(envRedirectUri) then envRedirectUri.value else DefaultRedirectUri)
  {
    Config(if Truthy(envClientId) then envClientId.value else "",
           if Truthy(envRedirectUri) then envRedirectUri.value else DefaultRedirectUri)
  }

  const Scopes: seq<string> :=
    ["streaming", "user-read-email", "user-read-private", "user-read-playback-state", "user-modify-playback-state"]

  /* ---------------------------------------------------------------------------
     Code verifier (section 4.1 of RFC 7636)
     ------------------------------------------------------------------------- */

  /** The `count` consecutive code points starting at `first`. */
  function CharRange(first: char, count: nat): (s: string)
    requires (first as int) + count <= 0xD800
    ensures |s| == count
    ensures forall i :: 0 <= i < count ==> s[i] == ((first as int) + i) as char
  {
    seq(count, i requires 0 <= i < count => ((first as int) + i) as char)
  }

  /** `possible` of `generateCodeVerifier`: the capitals, the small letters,
      the digits, then `-._~`, in that order (66 characters). */
  const VerifierAlphabet: string := CharRange('A', 26) + CharRange('a', 26) + CharRange('0', 10) + "-._~"
  const DefaultVerifierLength: nat := 128

  /** `unreserved = ALPHA / DIGIT / "-" / "." / "_" / "~"` */
  predicate IsUnreserved(c: char) {
    ('A' <= c <= 'Z') || ('a' <= c <= 'z') || ('0' <= c <= '9') || c == '-' || c == '.' || c == '_' || c == '~'
  }

  /** The source's alphabet is exactly the 66 unreserved characters, each once. */
  lemma VerifierAlphabetIsUnreserved()
    ensures |VerifierAlphabet| == 66
    ensures forall i :: 0 <= i < |VerifierAlphabet| ==> IsUnreserved(VerifierAlphabet[i])
    ensures forall i, j :: 0 <= i < j < |VerifierAlphabet| ==> VerifierAlphabet[i] != VerifierAlphabet[j]
    ensures forall c :: IsUnreserved(c) ==> c in VerifierAlphabet
  {
    var a := VerifierAlphabet;
    assert forall i :: 0 <= i < 26 ==> a[i] == (('A' as int) + i) as char;
    assert forall i :: 26 <= i < 52 ==> a[i] == (('a' as int) + i - 26) as char;
    assert forall i :: 52 <= i < 62 ==> a[i] == (('0' as int) + i - 52) as char;
    assert a[62] == '-' && a[63] == '.' && a[64] == '_' && a[65] == '~';
    forall c | IsUnreserved(c)
      ensures c in a
    {
      if 'A' <= c <= 'Z' {
        assert a[(c as int) - ('A' as int)] == c;
      } else if 'a' <= c <= 'z' {
        assert a[(c as int) - ('a' as int) + 26] == c;
      } else if '0' <= c <= '9' {
        assert a[(c as int) - ('0' as int) + 52] == c;
      }
    }
  }

  /** Draws of `Math.random()` lie in [0, 1). */
  predicate ValidDraws(draws: seq<real>) {
    forall i :: 0 <= i < |draws| ==> 0.0 <= draws[i] < 1.0
  }

  /** `generateCodeVerifier(length)`: one alphabet character per random draw,
      `possible.charAt(Math.floor(Math.random() * possible.length))`. */
  function GenerateCodeVerifier(length: nat, draws: seq<real>): (v: string)
    requires |draws| == length && ValidDraws(draws)
    ensures |v| == length
    ensures forall i :: 0 <= i < |v| ==> IsUnreserved(v[i])
    // the character is the one whose sixty-sixth of [0, 1) holds the draw
    ensures forall i, k ::
              (0 <= i < |v| && 0 <= k < 66 && (k as real) / 66.0 <= draws[i] < ((k + 1) as real) / 66.0)
              ==> v[i] == VerifierAlphabet[k]
  {
    VerifierAlphabetIsUnreserved();
    var v := seq(length, i requires 0 <= i < length => VerifierAlphabet[AlphabetIndex(draws[i])]);
    assert forall i :: 0 <= i < length ==> v[i] == VerifierAlphabet[AlphabetIndex(draws[i])];
    v
  }

  function AlphabetIndex(x: real): (k: int)
    requires 0.0 <= x < 1.0
    ensures 0 <= k < 66
    ensures (k as real) / 66.0 <= x < ((k + 1) as real) / 66.0
  {
    (x * 66.0).Floor
  }

  /** The default verifier has the 128 characters the source asks for, inside
      the 43..128 range of section 4.1 of RFC 7636. */
  function GenerateDefaultCodeVerifier(draws: seq<real>): (v: string)
    requires |draws| == DefaultVerifierLength && ValidDraws(draws)
    ensures 43 <= |v| <= 128
    ensures forall i :: 0 <= i < |v| ==> IsUnreserved(v[i])
  {
    GenerateCodeVerifier(DefaultVerifierLength, draws)
  }

  /* ---------------------------------------------------------------------------
     Code challenge (section 4.2 of RFC 7636)
     ------------------------------------------------------------------------- */

  /** `generateCodeChallenge`: `btoa` of the SHA-256 digest, made url-safe and
      unpadded. The digest is computed by the `sha256` parameter. */
  function GenerateCodeChallenge(verifier: string, sha256: string -> seq<byte>): (c: string)
    ensures c == Base64UrlNoPad(sha256(verifier))
    ensures |sha256(verifier)| == 32 ==> |c| == 43
    ensures '+' !in c && '/' !in c && (|c| == 0 || c[|c| - 1] != '=')
  {
    ChallengeEncoding(sha256(verifier));
    ToBase64Url(Base64Std(sha256(verifier)))
  }

  /* ---------------------------------------------------------------------------
     Verifier storage
     ------------------------------------------------------------------------- */

  function StoreCodeVerifier(st: Storage, verifier: string): (r: Storage)
    ensures r.codeVerifier == Some(verifier)
    ensures r.accessToken == st.accessToken && r.processedCode == st.processedCode
  {
    st.(codeVerifier := Some(verifier))
  }

  function GetCodeVerifier(st: Storage): Option<string> {
    st.codeVerifier
  }

  function ClearCodeVerifier(st: Storage): (r: Storage)
    ensures r.codeVerifier.None?
    ensures r.accessToken == st.accessToken && r.processedCode == st.processedCode
  {
    st.(codeVerifier := None)
  }

  /* ---------------------------------------------------------------------------
     Authorization URL (section 4.3 of RFC 7636)
     ------------------------------------------------------------------------- */

  const AuthorizeEndpoint: string := "https://accounts.spotify.com/authorize"

  /** A URL as its endpoint and its ordered query parameters. */
  datatype Url = Url(endpoint: string, params: seq<(string, string)>)

  /** `URLSearchParams.get`: the first value under `key`. */
  function Lookup(params: seq<(string, string)>, key: string): (r: Option<string>)
    ensures r.None? <==> forall i :: 0 <= i < |params| ==> params[i].0 != key
    decreases |params|
  {
    if |params| == 0 then None
    else if params[0].0 == key then Some(params[0].1)
    else Lookup(params[1..], key)
  }

  /** The first entry under a key is the one `Lookup` finds. */
  lemma {:induction false} LookupAt(params: seq<(string, string)>, i: nat)
    requires i < |params|
    requires forall j :: 0 <= j < i ==> params[j].0 != params[i].0
    ensures Lookup(params, params[i].0) == Some(params[i].1)
    decreases i
  {
    if i > 0 {
      LookupAt(params[1..], i - 1);
    }
  }

  lemma AuthParamsLookup(params: seq<(string, string)>)
    requires |params| == 6
    requires params[0].0 == "client_id" && params[1].0 == "response_type" && params[2].0 == "redirect_uri"
    requires params[3].0 == "scope" && params[4].0 == "code_challenge_method" && params[5].0 == "code_challenge"
    ensures forall i :: 0 <= i < 6 ==> Lookup(params, params[i].0) == Some(params[i].1)
  {
    // the six keys have six different lengths
    assert |params[0].0| == 9 && |params[1].0| == 13 && |params[2].0| == 12;
    assert |params[3].0| == 5 && |params[4].0| == 21 && |params[5].0| == 14;
    LookupAt(params, 0); LookupAt(params, 1); LookupAt(params, 2);
    LookupAt(params, 3); LookupAt(params, 4); LookupAt(params, 5);
  }

  /** `SCOPES.join(' ')`. */
  const ScopeParam: string := Text.Join(Scopes, ' ')

  datatype LoginStart = LoginStart(url: Url, storage: Storage, verifier: string)

  /** `getAuthUrl`: generates a verifier, stores it, and builds the
      authorization request carrying its S256 challenge. */
  function GetAuthUrl(st: Storage, config: Config, draws: seq<real>, sha256: string -> seq<byte>): (r: LoginStart)
    requires |draws| == DefaultVerifierLength && ValidDraws(draws)
    ensures r.verifier == GenerateCodeVerifier(DefaultVerifierLength, draws)
    ensures r.storage == st.(codeVerifier := Some(r.verifier))
    ensures r.url.endpoint == AuthorizeEndpoint
    ensures Lookup(r.url.params, "response_type") == Some("code")
    ensures Lookup(r.url.params, "code_challenge_method") == Some("S256")
    ensures Lookup(r.url.params, "code_challenge") == Some(Base64UrlNoPad(sha256(r.verifier)))
    ensures Lookup(r.url.params, "client_id") == Some(config.clientId)
    ensures Lookup(r.url.params, "redirect_uri") == Some(config.redirectUri)
    ensures Lookup(r.url.params, "scope") == Some(ScopeParam)
  {
    var verifier := GenerateDefaultCodeVerifier(draws);
    var challenge := GenerateCodeChallenge(verifier, sha256);
    var stored := StoreCodeVerifier(st, verifier);
    var params := [
      ("client_id", config.clientId),
      ("response_type", "code"),
      ("redirect_uri", config.redirectUri),
      ("scope", ScopeParam),
      ("code_challenge_method", "S256"),
      ("code_challenge", challenge)];
    AuthParamsLookup(params);
    LoginStart(Url(AuthorizeEndpoint, params), stored, verifier)
  }

  /* ---------------------------------------------------------------------------
     Token exchange (section 4.5 of RFC 7636)
     ------------------------------------------------------------------------- */

  const TokenEndpoint: string := "https://accounts.spotify.com/api/token"

  /** What the token endpoint's fetch produced: an OK response whose JSON
      carries (or lacks) `access_token`, a non-OK status, or a thrown error
      (network failure or unreadable JSON). */
  datatype TokenResponse = TokenOk(accessToken: Option<string>) | TokenNotOk(status: int) | TokenThrew

  /** The synchronous part of `exchangeCodeForToken`, up to the fetch: no
      stored verifier means no request at all. */
  function BeginExchange(st: Storage, config: Config, code: string): (req: Option<Url>)
    ensures !Truthy(st.codeVerifier) <==> req.None?
    ensures req.Some? ==>
      && req.value.endpoint == TokenEndpoint
      && Lookup(req.value.params, "grant_type") == Some("authorization_code")
      && Lookup(req.value.params, "code") == Some(code)
      && Lookup(req.value.params, "redirect_uri") == Some(config.redirectUri)
      && Lookup(req.value.params, "code_verifier") == st.codeVerifier
      && Lookup(req.value.params, "client_id") == Some(config.clientId)
  {
    var verifier := GetCodeVerifier(st);
    if !Truthy(verifier) then None
    else
      var params := [
        ("client_id", config.clientId),
        ("grant_type", "authorization_code"),
        ("code", code),
        ("redirect_uri", config.redirectUri),
        ("code_verifier", verifier.value)];
      LookupAt(params, 0); LookupAt(params, 1); LookupAt(params, 2);
      LookupAt(params, 3); LookupAt(params, 4);
      Some(Url(TokenEndpoint, params))
  }

  /** The part after the fetch: every outcome clears the verifier; only an
      OK response yields its `access_token`. */
  function FinishExchange(st: Storage, resp: TokenResponse): (r: (Storage, Option<string>))
    ensures r.0 == st.(codeVerifier := None)
    ensures r.1.Some? ==> resp == TokenOk(r.1)
    ensures resp.TokenOk? ==> r.1 == resp.accessToken
  {
    var cleared := ClearCodeVerifier(st);
    match resp
    case TokenOk(t) => (cleared, t)
    case TokenNotOk(_) => (cleared, None)
    case TokenThrew => (cleared, None)
  }

  datatype Exchange = Exchange(storage: Storage, result: Option<string>, requests: seq<Url>)

  /** `exchangeCodeForToken` run to completion against the token endpoint `respond`. */
  function ExchangeCodeForToken(st: Storage, config: Config, code: string, respond: Url -> TokenResponse): (e: Exchange)
    ensures !Truthy(st.codeVerifier) ==> e == Exchange(st, None, [])
    ensures Truthy(st.codeVerifier) ==>
      && |e.requests| == 1
      && e.storage == st.(codeVerifier := None)
      && Lookup(e.requests[0].params, "code_verifier") == st.codeVerifier
      && Lookup(e.requests[0].params, "code") == Some(code)
      && (e.result.Some? <==> respond(e.requests[0]).TokenOk? && respond(e.requests[0]).accessToken.Some?)
  {
    var req := BeginExchange(st, config, code);
    if req.None? then Exchange(st, None, [])
    else
      var (st', token) := FinishExchange(st, respond(req.value));
      Exchange(st', token, [req.value])
  }

  /** Whatever the first exchange's outcome, a second one without a new
      `getAuthUrl` in between cannot reach the network. */
  lemma SecondExchangeIsOffline(st: Storage, config: Config, code1: string, code2: string,
                                respond1: Url -> TokenResponse, respond2: Url -> TokenResponse)
    ensures var first := ExchangeCodeForToken(st, config, code1, respond1);
            ExchangeCodeForToken(first.storage, config, code2, respond2).requests == []
  {
  }
}

=== FILE: spotify_images.dfy ===
/** Image lookups against the Web API: the token check, the artist image, the
    album art of a track (with the id taken from its URI), the memoising
    album-art cache, and the batched lookup of many tracks. The endpoints are
    oracles; what the helpers send is returned as an effect log. */
module SpotifyImages {
  import opened Wrappers
  import opened Text

  /** The local-storage key a 401 removes. */
  const TokenStorageKey: string := "spotify_access_token"

  /** `isTokenValid`: non-null, non-empty, and not only whitespace. */
  predicate IsTokenValid(token: Option<string>) {
    Truthy(token) && |Trim(token.value)| > 0
  }

  lemma TokenValidIff(token: Option<string>)
    ensures IsTokenValid(token) <==> token.Some? && exists i :: 0 <= i < |token.value| && !IsJsWhitespace(token.value[i])
  {
    if token.Some? {
      TrimNonEmpty(token.value);
    }
  }

  datatype Image = Image(url: string)

  /** How a request ended: the fetch or the body parsing threw, a non-OK
      status, or an OK response with its (parsed) body. */
  datatype Reply<T> = Failed | NotOk(status: int) | Ok(body: T)

  /** The artist search body: the images of each artist found, in order. */
  type ArtistApi = string -> Reply<seq<seq<Image>>>
  /** The track body: the images of the track's album. */
  type TrackApi = string -> Reply<seq<Image>>

  /** What the helpers send: an artist search, a track lookup, and the
      `spotify-auth-error` signal (after removing the stored token). */
  datatype Effect = SearchArtist(query: string) | GetTrack(id: string) | AuthErrorRaised(removedKey: string)

  /** `handleAuthError`: the stored token is removed, then the signal raised. */
  const HandleAuthError: Effect := AuthErrorRaised(TokenStorageKey)

  datatype Fetched = Fetched(image: Option<string>, effects: seq<Effect>)

  /** `fetchArtistImage`: the first image of the first artist found. */
  function FetchArtistImage(api: ArtistApi, artistName: string, token: Option<string>): (r: Fetched)
    ensures !IsTokenValid(token) ==> r == Fetched(None, [])
    ensures IsTokenValid(token) ==> |r.effects| >= 1 && r.effects[0] == SearchArtist(artistName)
    // one search, followed by the auth-error handling on a 401 and by nothing else
    ensures IsTokenValid(token) ==> |r.effects| == if api(artistName) == NotOk(401) then 2 else 1
    // a 401 raises the auth-error signal, and nothing else does
    ensures HandleAuthError in r.effects <==> IsTokenValid(token) && api(artistName) == NotOk(401)
    ensures HandleAuthError in r.effects ==> r.image.None?
    ensures r.image.Some? <==>
      (IsTokenValid(token) && api(artistName).Ok? && |api(artistName).body| > 0 && |api(artistName).body[0]| > 0)
    ensures r.image.Some? ==> r.image.value == api(artistName).body[0][0].url
  {
    if !IsTokenValid(token) then Fetched(None, [])
    else
      var sent := [SearchArtist(artistName)];
      match api(artistName)
      case NotOk(status) => if status == 401 then Fetched(None, sent + [HandleAuthError]) else Fetched(None, sent)
      case Failed => Fetched(None, sent)
      case Ok(artists) =>
        if |artists| > 0 && |artists[0]| > 0 then Fetched(Some(artists[0][0].url), sent) else Fetched(None, sent)
  }

  /** `trackUri.split(':')[2]`, with a missing or empty piece as null. */
  function TrackId(uri: string): (r: Option<string>)
    ensures r.Some? <==> |Split(uri, ':')| > 2 && Split(uri, ':')[2] != ""
    ensures r.Some? ==> r.value == Split(uri, ':')[2]
    ensures r.Some? ==> r.value != "" && ':' !in r.value
    ensures ':' !in uri ==> r.None?
  {
    var parts := Split(uri, ':');
    if |parts| > 2 && parts[2] != "" then Some(parts[2]) else None
  }

  /** A track URI `spotify:track:<id>` gives back its id. */
  lemma TrackIdOfTrackUri(id: string)
    requires id != "" && ':' !in id
    ensures TrackId("spotify:track:" + id) == Some(id)
  {
    var uri := "spotify:track:" + id;
    assert uri == "spotify" + [':'] + ("track" + [':'] + id);
    SplitAfterPiece("spotify", ':', "track" + [':'] + id);
    SplitAfterPiece("track", ':', id);
    SplitNoSeparator(id, ':');
  }

  /** `images[1]?.url || images[0].url`: the medium image when it has a URL,
      else the first one; None for an empty list. */
  function MediumImage(images: seq<Image>): (r: Option<string>)
    ensures r.None? <==> |images| == 0
    // the second image whenever it has a URL ...
    ensures |images| > 1 && images[1].url != "" ==> r == Some(images[1].url)
    // ... and otherwise the first, whatever its URL
    ensures |images| == 1 || (|images| > 1 && images[1].url == "") ==> r == Some(images[0].url)
  {
    if |images| == 0 then None
    else if |images| > 1 && images[1].url != "" then Some(images[1].url)
    else Some(images[0].url)
  }

  /** `fetchAlbumArt`. */
  function FetchAlbumArt(api: TrackApi, uri: string, token: Option<string>): (r: Fetched)
    // no request at all without a valid token or a track id
    ensures !IsTokenValid(token) || TrackId(uri).None? ==> r == Fetched(None, [])
    ensures IsTokenValid(token) && TrackId(uri).Some? ==> |r.effects| >= 1 && r.effects[0] == GetTrack(TrackId(uri).value)
    // one lookup, followed by the auth-error handling on a 401 and by nothing else
    ensures IsTokenValid(token) && TrackId(uri).Some? ==>
      |r.effects| == if api(TrackId(uri).value) == NotOk(401) then 2 else 1
    ensures HandleAuthError in r.effects <==>
      (IsTokenValid(token) && TrackId(uri).Some? && api(TrackId(uri).value) == NotOk(401))
    ensures r.image.Some? <==>
      (IsTokenValid(token) && TrackId(uri).Some? && api(TrackId(uri).value).Ok? && |api(TrackId(uri).value).body| > 0)
    ensures r.image.Some? ==> r.image == MediumImage(api(TrackId(uri).value).body)
  {
    if !IsTokenValid(token) then Fetched(None, [])
    else match TrackId(uri)
      case None => Fetched(None, [])
      case Some(id) =>
        var sent := [GetTrack(id)];
        match api(id)
        case NotOk(status) => if status == 401 then Fetched(None, sent + [HandleAuthError]) else Fetched(None, sent)
        case Failed => Fetched(None, sent)
        case Ok(images) => Fetched(MediumImage(images), sent)
  }

  /* ---------------------------------------------------------------------------
     The album-art cache
     ------------------------------------------------------------------------- */

  /** The module-level `albumArtCache`: a URI maps to the art it resolved
      to, null included. */
  type ArtCache = map<string, Option<string>>

  /** `x || null` on a nullable string. */
  function OrNull(x: Option<string>): (r: Option<string>)
    ensures Truthy(x) ==> r == x
    ensures !Truthy(x) ==> r.None?
  {
    if Truthy(x) then x else None
  }

  datatype CachedFetch = CachedFetch(image: Option<string>, cache: ArtCache, effects: seq<Effect>)

  /** A lookup through the cache with `fetch` as the uncached lookup. */
  function CachedLookup(cache: ArtCache, fetch: string -> Fetched, uri: string): (r: CachedFetch)
    // a cached URI, even one cached as null, is answered without a request
    ensures uri in cache ==> r == CachedFetch(OrNull(cache[uri]), cache, [])
    ensures uri !in cache ==> r == CachedFetch(fetch(uri).image, cache[uri := fetch(uri).image], fetch(uri).effects)
    // the URI is cached afterwards, and the answer agrees with the cache
    ensures uri in r.cache && OrNull(r.image) == OrNull(r.cache[uri])
    ensures r.cache.Keys == cache.Keys + {uri}
    ensures forall u :: u in cache ==> r.cache[u] == cache[u]
  {
    if uri in cache then CachedFetch(OrNull(cache[uri]), cache, [])
    else
      var f := fetch(uri);
      CachedFetch(f.image, cache[uri := f.image], f.effects)
  }

  /** `fetchAlbumArtCached`. */
  function FetchAlbumArtCached(cache: ArtCache, api: TrackApi, uri: string, token: Option<string>): (r: CachedFetch)
    ensures uri in cache ==> r == CachedFetch(OrNull(cache[uri]), cache, [])
    ensures uri !in cache ==>
      var f := FetchAlbumArt(api, uri, token);
      r == CachedFetch(f.image, cache[uri := f.image], f.effects)
  {
    CachedLookup(cache, u => FetchAlbumArt(api, u, token), uri)
  }

  /** A repeated lookup of the same URI sends nothing and answers what the
      first one answered, read through `|| null`. */
  lemma CachedLookupRepeats(cache: ArtCache, api: TrackApi, uri: string, token: Option<string>, api2: TrackApi, token2: Option<string>)
    ensures var first := FetchAlbumArtCached(cache, api, uri, token);
            var second := FetchAlbumArtCached(first.cache, api2, uri, token2);
            second.effects == [] && second.cache == first.cache && second.image == OrNull(first.image)
  {
  }

  /* ---------------------------------------------------------------------------
     Batches
     ------------------------------------------------------------------------- */

  const BatchSize: nat := 10

  function Min(a: int, b: int): int { if a < b then a else b }

  /** The cache after looking up `uris` one after the other. */
  function Through(cache: ArtCache, fetch: string -> Fetched, uris: seq<string>): ArtCache
    decreases |uris|
  {
    if |uris| == 0 then cache else Through(CachedLookup(cache, fetch, uris[0]).cache, fetch, uris[1..])
  }

  /** The lookups cache every URI, keep the old entries and store what the
      fetch answered for the new ones. */
  lemma {:induction false} ThroughCaches(cache: ArtCache, fetch: string -> Fetched, uris: seq<string>)
    ensures var r := Through(cache, fetch, uris);
            && (forall u :: u in r <==> u in cache || u in uris)
            && (forall u :: u in cache ==> r[u] == cache[u])
            && (forall u :: u in r && u !in cache ==> r[u] == fetch(u).image)
    decreases |uris|
  {
    if |uris| > 0 {
      var c := CachedLookup(cache, fetch, uris[0]).cache;
      ThroughCaches(c, fetch, uris[1..]);
      assert forall u :: u in uris <==> u == uris[0] || u in uris[1..];
    }
  }

  /** The requests of looking up `uris` one after the other: a cached URI
      sends nothing, an uncached one its fetch's requests, and the lookups
      follow the order of `uris`. */
  function Sent(cache: ArtCache, fetch: string -> Fetched, uris: seq<string>): (e: seq<Effect>)
    ensures (forall u :: u in uris ==> u in cache) ==> e == []
    decreases |uris|
  {
    if |uris| == 0 then []
    else
      var r := CachedLookup(cache, fetch, uris[0]);
      r.effects + Sent(r.cache, fetch, uris[1..])
  }

  /** Looking up `a + b` leaves the cache that looking up `b` leaves on
      the cache `a` left. */
  lemma {:induction false} ThroughAppend(cache: ArtCache, fetch: string -> Fetched, a: seq<string>, b: seq<string>)
    ensures Through(cache, fetch, a + b) == Through(Through(cache, fetch, a), fetch, b)
    decreases |a|
  {
    if |a| == 0 {
      assert a + b == b;
    } else {
      var c := CachedLookup(cache, fetch, a[0]).cache;
      assert (a + b)[0] == a[0] && (a + b)[1..] == a[1..] + b;
      assert Through(cache, fetch, a + b) == Through(c, fetch, a[1..] + b);
      ThroughAppend(c, fetch, a[1..], b);
    }
  }

  /** Looking up `a + b` sends the requests of `a`, then those of `b` on the
      cache `a` left. */
  lemma {:induction false} SentAppend(cache: ArtCache, fetch: string -> Fetched, a: seq<string>, b: seq<string>)
    ensures Sent(cache, fetch, a + b) == Sent(cache, fetch, a) + Sent(Through(cache, fetch, a), fetch, b)
    decreases |a|
  {
    if |a| == 0 {
      assert a + b == b;
    } else {
      var r := CachedLookup(cache, fetch, a[0]);
      assert (a + b)[0] == a[0] && (a + b)[1..] == a[1..] + b;
      assert Sent(cache, fetch, a + b) == r.effects + Sent(r.cache, fetch, a[1..] + b);
      SentAppend(r.cache, fetch, a[1..], b);
    }
  }

  /** A URI that comes again later in the list is not fetched a second time. */
  lemma RepeatedUriSendsNothing(cache: ArtCache, fetch: string -> Fetched, uris: seq<string>, u: string)
    requires u in uris
    ensures Sent(cache, fetch, uris + [u]) == Sent(cache, fetch, uris)
  {
    SentAppend(cache, fetch, uris, [u]);
    ThroughCaches(cache, fetch, uris);
    assert [u][1..] == [];
  }

  /** One batch: every URI of it through the cache, in order; `results`
      gets an entry for each. */
  method FetchChunk(cache: ArtCache, fetch: string -> Fetched, batch: seq<string>, results: map<string, Option<string>>)
    returns (results': map<string, Option<string>>, cache': ArtCache, effects: seq<Effect>)
    requires forall u :: u in results ==> u in cache && OrNull(results[u]) == OrNull(cache[u])
    ensures forall u :: u in results' <==> u in results || u in batch
    ensures forall u :: u in cache' <==> u in cache || u in batch
    ensures forall u :: u in cache ==> cache'[u] == cache[u]
    ensures forall u :: u in results' ==> u in cache' && OrNull(results'[u]) == OrNull(cache'[u])
    // a URI that was not cached holds what its fetch resolved to
    ensures forall u :: u in batch && u !in cache ==> cache'[u] == fetch(u).image
    // a batch answered entirely from the cache sends nothing
    ensures (forall u :: u in batch ==> u in cache) ==> effects == []
    // the lookups run one after the other, in batch order
    ensures cache' == Through(cache, fetch, batch) && effects == Sent(cache, fetch, batch)
  {
    results', cache', effects := LookupAll(cache, fetch, batch, results);
    ChunkStateDone(cache, fetch, results, batch, results', cache', effects);
  }

  /** The loop of one batch: each URI through the cache in turn. */
  method LookupAll(cache: ArtCache, fetch: string -> Fetched, batch: seq<string>, results: map<string, Option<string>>)
    returns (results': map<string, Option<string>>, cache': ArtCache, effects: seq<Effect>)
    requires forall u :: u in results ==> u in cache && OrNull(results[u]) == OrNull(cache[u])
    ensures ChunkState(cache, fetch, results, batch, results', cache', effects)
  {
    results' := results;
    cache' := cache;
    effects := [];
    var j := 0;
    assert batch[..0] == [];
    while j < |batch|
      invariant 0 <= j <= |batch|
      invariant ChunkState(cache, fetch, results, batch[..j], results', cache', effects)
    {
      var r := CachedLookup(cache', fetch, batch[j]);
      ChunkStateStep(cache, fetch, results, batch, j, results', cache', effects);
      results' := results'[batch[j] := r.image];
      cache' := r.cache;
      effects := effects + r.effects;
      j := j + 1;
    }
    assert batch[..|batch|] == batch;
  }

  /** Part way through a batch: `done` went through the cache on top of `results`. */
  ghost predicate ChunkState(cache: ArtCache, fetch: string -> Fetched, results: map<string, Option<string>>,
                             done: seq<string>, results': map<string, Option<string>>, cache': ArtCache, effects: seq<Effect>) {
    && (forall u :: u in results' <==> u in results || u in done)
    && cache' == Through(cache, fetch, done)
    && effects == Sent(cache, fetch, done)
    && (forall u :: u in results' ==> u in cache' && OrNull(results'[u]) == OrNull(cache'[u]))
  }

  lemma ChunkStateStep(cache: ArtCache, fetch: string -> Fetched, results: map<string, Option<string>>,
                       batch: seq<string>, j: nat, results': map<string, Option<string>>, cache': ArtCache, effects: seq<Effect>)
    requires j < |batch|
    requires ChunkState(cache, fetch, results, batch[..j], results', cache', effects)
    ensures var r := CachedLookup(cache', fetch, batch[j]);
            ChunkState(cache, fetch, results, batch[..j + 1], results'[batch[j] := r.image], r.cache, effects + r.effects)
  {
    assert batch[..j + 1] == batch[..j] + [batch[j]];
    LookupStep(cache, fetch, batch[..j], batch[j]);
  }

  lemma ChunkStateDone(cache: ArtCache, fetch: string -> Fetched, results: map<string, Option<string>>,
                       batch: seq<string>, results': map<string, Option<string>>, cache': ArtCache, effects: seq<Effect>)
    requires ChunkState(cache, fetch, results, batch, results', cache', effects)
    ensures forall u :: u in cache' <==> u in cache || u in batch
    ensures forall u :: u in cache ==> cache'[u] == cache[u]
    ensures forall u :: u in batch && u !in cache ==> cache'[u] == fetch(u).image
    ensures (forall u :: u in batch ==> u in cache) ==> effects == []
  {
    ThroughCaches(cache, fetch, batch);
  }

  /** One more lookup after `done`. */
  lemma LookupStep(cache: ArtCache, fetch: string -> Fetched, done: seq<string>, uri: string)
    ensures var r := CachedLookup(Through(cache, fetch, done), fetch, uri);
            Through(cache, fetch, done + [uri]) == r.cache && Sent(cache, fetch, done + [uri]) == Sent(cache, fetch, done) + r.effects
  {
    ThroughAppend(cache, fetch, done, [uri]);
    SentAppend(cache, fetch, done, [uri]);
    assert [uri][1..] == [];
  }

  datatype BatchStep = Chunk(uris: seq<string>) | Pause

  /** After the URIs `done` went through the cache, one after the other:
      each has a result that agrees with the cache, and the cache and the
      requests are those of the lookups in order. */
  ghost predicate Covered(cache: ArtCache, fetch: string -> Fetched, done: seq<string>,
                          results: map<string, Option<string>>, cache': ArtCache, effects: seq<Effect>) {
    && (forall u :: u in results <==> u in done)
    && (forall u :: u in results ==> u in cache' && OrNull(results[u]) == OrNull(cache'[u]))
    && cache' == Through(cache, fetch, done)
    && effects == Sent(cache, fetch, done)
  }

  /** One more chunk, `uris[i..end]`, through the cache extends what is covered. */
  lemma CoveredStep(cache: ArtCache, fetch: string -> Fetched, uris: seq<string>, i: nat, end: nat,
                    results: map<string, Option<string>>, mid: ArtCache, effects: seq<Effect>,
                    results': map<string, Option<string>>, cache': ArtCache, sent: seq<Effect>)
    requires i <= end <= |uris|
    requires Covered(cache, fetch, uris[..i], results, mid, effects)
    requires forall u :: u in results' <==> u in results || u in uris[i..end]
    requires forall u :: u in results' ==> u in cache' && OrNull(results'[u]) == OrNull(cache'[u])
    requires cache' == Through(mid, fetch, uris[i..end]) && sent == Sent(mid, fetch, uris[i..end])
    ensures Covered(cache, fetch, uris[..end], results', cache', effects + sent)
  {
    PrefixLookups(cache, fetch, uris, i, end);
    PrefixMembers(uris, i, end);
  }

  lemma PrefixLookups(cache: ArtCache, fetch: string -> Fetched, uris: seq<string>, i: nat, end: nat)
    requires i <= end <= |uris|
    ensures Through(cache, fetch, uris[..end]) == Through(Through(cache, fetch, uris[..i]), fetch, uris[i..end])
    ensures Sent(cache, fetch, uris[..end]) == Sent(cache, fetch, uris[..i]) + Sent(Through(cache, fetch, uris[..i]), fetch, uris[i..end])
  {
    assert uris[..end] == uris[..i] + uris[i..end];
    ThroughAppend(cache, fetch, uris[..i], uris[i..end]);
    SentAppend(cache, fetch, uris[..i], uris[i..end]);
  }

  lemma PrefixMembers(uris: seq<string>, i: nat, end: nat)
    requires i <= end <= |uris|
    ensures forall u :: u in uris[..end] <==> u in uris[..i] || u in uris[i..end]
  {
    assert uris[..end] == uris[..i] + uris[i..end];
  }

  /** Once every URI is covered: the cache gained exactly the URIs, each
      result is the fetched art of an uncached URI or the cached art of a
      cached one, and an all-cached run sent nothing. */
  lemma CoveredResults(cache: ArtCache, fetch: string -> Fetched, uris: seq<string>,
                       results: map<string, Option<string>>, cache': ArtCache, effects: seq<Effect>)
    requires Covered(cache, fetch, uris, results, cache', effects)
    ensures forall u :: u in cache' <==> u in cache || u in uris
    ensures forall u :: u in cache ==> cache'[u] == cache[u]
    ensures forall u :: u in uris && u !in cache ==> OrNull(results[u]) == OrNull(fetch(u).image)
    ensures forall u :: u in uris && u in cache ==> OrNull(results[u]) == OrNull(cache[u])
    ensures (forall u :: u in uris ==> u in cache) ==> effects == []
  {
    ThroughCaches(cache, fetch, uris);
  }

  /** One iteration of `fetchBatchAlbumArt`'s loop: the chunk `uris[i..end]`
      through the cache, its requests appended to `effects`. */
  method FetchNextChunk(cache: ArtCache, fetch: string -> Fetched, uris: seq<string>, i: nat, end: nat,
                        results: map<string, Option<string>>, mid: ArtCache, effects: seq<Effect>)
    returns (results': map<string, Option<string>>, cache': ArtCache, effects': seq<Effect>)
    requires i <= end <= |uris|
    requires Covered(cache, fetch, uris[..i], results, mid, effects)
    ensures Covered(cache, fetch, uris[..end], results', cache', effects')
  {
    var sent;
    results', cache', sent := FetchChunk(mid, fetch, uris[i..end], results);
    CoveredStep(cache, fetch, uris, i, end, results, mid, effects, results', cache', sent);
    effects' := effects + sent;
  }

  /** The loop of `fetchBatchAlbumArt` over the uncached lookup `fetch`:
      consecutive chunks of at most ten URIs, a pause between two chunks;
      every input URI gets an entry in the result. */
  method FetchInBatches(cache: ArtCache, fetch: string -> Fetched, uris: seq<string>)
    returns (results: map<string, Option<string>>, cache': ArtCache, steps: seq<BatchStep>, effects: seq<Effect>)
    ensures forall u :: u in results <==> u in uris
    ensures forall u :: u in cache' <==> u in cache || u in uris
    ensures forall u :: u in cache ==> cache'[u] == cache[u]
    ensures forall u :: u in results ==> OrNull(results[u]) == OrNull(cache'[u])
    // the art of an uncached URI is what its fetch resolves it to, a cached one's what the cache held
    ensures forall u :: u in uris && u !in cache ==> OrNull(results[u]) == OrNull(fetch(u).image)
    ensures forall u :: u in uris && u in cache ==> OrNull(results[u]) == OrNull(cache[u])
    // a batch answered entirely from the cache sends nothing
    ensures (forall u :: u in uris ==> u in cache) ==> effects == []
    // each uncached URI is fetched once, in input order, and no cached one is
    ensures cache' == Through(cache, fetch, uris) && effects == Sent(cache, fetch, uris)
    ensures |steps| == if |uris| == 0 then 0 else 2 * ((|uris| + BatchSize - 1) / BatchSize) - 1
    ensures forall k :: 0 <= k < (|uris| + BatchSize - 1) / BatchSize ==>
      steps[2 * k] == Chunk(uris[BatchSize * k..Min(BatchSize * k + BatchSize, |uris|)])
    ensures forall k :: 0 <= k < (|uris| + BatchSize - 1) / BatchSize - 1 ==> steps[2 * k + 1] == Pause
  {
    // `i` steps to the end of the chunk just fetched, which is `i + 10` for
    // every chunk but the last

    var n := |uris|;
    results := map[];
    cache' := cache;
    steps := [];
    effects := [];
    var i := 0;
    var k := 0;
    while i < n
      invariant Layout(uris, i, k, steps)
      invariant Covered(cache, fetch, uris[..i], results, cache', effects)
    {
      var end := Min(i + BatchSize, n);
      results, cache', effects := FetchNextChunk(cache, fetch, uris, i, end, results, cache', effects);
      LayoutStep(uris, i, k, steps);
      steps := steps + [Chunk(uris[i..end])] + (if i + BatchSize < n then [Pause] else []);
      i := end;
      k := k + 1;
    }
    LayoutDone(uris, i, k, steps);
    assert uris[..i] == uris;
    CoveredResults(cache, fetch, uris, results, cache', effects);
  }

  /** After `k` chunks, ending at `i`: the chunks so far, each but the last
      of the whole run followed by a pause. */
  ghost predicate Layout(uris: seq<string>, i: int, k: nat, steps: seq<BatchStep>) {
    var n := |uris|;
    && 0 <= i <= n && i == Min(BatchSize * k, n) && (k > 0 ==> BatchSize * (k - 1) < n)
    && |steps| == (if i == n && k > 0 then 2 * k - 1 else 2 * k)
    && (forall c :: 0 <= c < k ==> steps[2 * c] == Chunk(uris[BatchSize * c..Min(BatchSize * c + BatchSize, n)]))
    && (forall c :: 0 <= c < k && BatchSize * c + BatchSize < n ==> steps[2 * c + 1] == Pause)
  }

  lemma LayoutStep(uris: seq<string>, i: int, k: nat, steps: seq<BatchStep>)
    requires Layout(uris, i, k, steps) && i < |uris|
    ensures var end := Min(i + BatchSize, |uris|);
            Layout(uris, end, k + 1, steps + [Chunk(uris[i..end])] + (if i + BatchSize < |uris| then [Pause] else []))
  {
  }

  lemma LayoutDone(uris: seq<string>, i: int, k: nat, steps: seq<BatchStep>)
    requires Layout(uris, i, k, steps) && i >= |uris|
    ensures |steps| == if |uris| == 0 then 0 else 2 * ((|uris| + BatchSize - 1) / BatchSize) - 1
    ensures forall c :: 0 <= c < (|uris| + BatchSize - 1) / BatchSize ==>
      steps[2 * c] == Chunk(uris[BatchSize * c..Min(BatchSize * c + BatchSize, |uris|)])
    ensures forall c :: 0 <= c < (|uris| + BatchSize - 1) / BatchSize - 1 ==> steps[2 * c + 1] == Pause
  {
    assert k == (|uris| + BatchSize - 1) / BatchSize;
  }

  /** `fetchAlbumArt` as the uncached lookup behind the cache. */
  function AlbumArtLookup(api: TrackApi, token: Option<string>): (f: string -> Fetched)
    ensures forall u :: f(u) == FetchAlbumArt(api, u, token)
  {
    u => FetchAlbumArt(api, u, token)
  }

  /** `fetchBatchAlbumArt`: the batches with `fetchAlbumArt` behind the cache. */
  method FetchBatchAlbumArt(cache: ArtCache, api: TrackApi, uris: seq<string>, token: Option<string>)
    returns (results: map<string, Option<string>>, cache': ArtCache, steps: seq<BatchStep>, effects: seq<Effect>)
    ensures forall u :: u in results <==> u in uris
    ensures forall u :: u in cache' <==> u in cache || u in uris
    ensures forall u :: u in cache ==> cache'[u] == cache[u]
    ensures forall u :: u in results ==> OrNull(results[u]) == OrNull(cache'[u])
    // the art of an uncached URI is what `fetchAlbumArt` resolves it to, a cached one's what the cache held
    ensures forall u :: u in uris && u !in cache ==> OrNull(results[u]) == OrNull(FetchAlbumArt(api, u, token).image)
    ensures forall u :: u in uris && u in cache ==> OrNull(results[u]) == OrNull(cache[u])
    // a batch answered entirely from the cache sends nothing
    ensures (forall u :: u in uris ==> u in cache) ==> effects == []
    // each uncached URI is fetched once, in input order, and no cached one is
    ensures cache' == Through(cache, AlbumArtLookup(api, token), uris)
    ensures effects == Sent(cache, AlbumArtLookup(api, token), uris)
    ensures |steps| == if |uris| == 0 then 0 else 2 * ((|uris| + BatchSize - 1) / BatchSize) - 1
    ensures forall k :: 0 <= k < (|uris| + BatchSize - 1) / BatchSize ==>
      steps[2 * k] == Chunk(uris[BatchSize * k..Min(BatchSize * k + BatchSize, |uris|)])
    ensures forall k :: 0 <= k < (|uris| + BatchSize - 1) / BatchSize - 1 ==> steps[2 * k + 1] == Pause
  {
    results, cache', steps, effects := FetchInBatches(cache, AlbumArtLookup(api, token), uris);
  }
}

=== FILE: spotify_player.dfy ===
/** The in-browser player binding of `useSpotifyPlayer`: creation of the SDK
    player when a token exists, the `ready`/`not_ready` device events, the
    guarded REST `play` call and the null-safe SDK delegations. Every call
    that leaves the page is appended to a command log. */
module SpotifyPlayer {
  import opened Wrappers

  datatype Command =
    | LoadSdkScript
    | Connect
    | PlayRequest(deviceId: string, token: string, uris: seq<string>)
    | Pause
    | Resume
    | NextTrack
    | PreviousTrack

  /** The hook's state: its token argument, whether the SDK player exists,
      the device id and readiness reported by the SDK, and the command log. */
  datatype Binding = Binding(
    token: Option<string>,
    player: bool,
    deviceId: Option<string>,
    isReady: bool,
    log: seq<Command>)

  /** Mounting the hook: with no (or an empty) token nothing happens at all;
      otherwise the SDK script is requested. */
  function Mount(token: Option<string>): (b: Binding)
    ensures !b.player && b.deviceId.None? && !b.isReady
    ensures !Truthy(token) <==> b.log == []
    ensures Truthy(token) ==> b.log == [LoadSdkScript]
  {
    Binding(token, false, None, false, if Truthy(token) then [LoadSdkScript] else [])
  }

  /** The SDK's ready callback creates and connects the player. The callback
      is only installed when the token was present at mount. */
  function OnSdkReady(b: Binding): (r: Binding)
    ensures Truthy(b.token) ==> r.player && r.log == b.log + [Connect]
    ensures !Truthy(b.token) ==> r == b
    ensures r.token == b.token && r.deviceId == b.deviceId && r.isReady == b.isReady
  {
    if Truthy(b.token) then b.(player := true, log := b.log + [Connect]) else b
  }

  /** `ready` event: records the device id and marks the binding ready.
      Listeners exist only once the player exists. */
  function OnReady(b: Binding, deviceId: string): (r: Binding)
    ensures b.player ==> r.deviceId == Some(deviceId) && r.isReady
    ensures !b.player ==> r == b
    ensures r.log == b.log && r.player == b.player && r.token == b.token
  {
    if b.player then b.(deviceId := Some(deviceId), isReady := true) else b
  }

  /** `not_ready` event: clears readiness and keeps the last device id. */
  function OnNotReady(b: Binding): (r: Binding)
    ensures b.player ==> !r.isReady
    ensures !b.player ==> r == b
    ensures r.deviceId == b.deviceId && r.log == b.log && r.player == b.player
  {
    if b.player then b.(isReady := false) else b
  }

  /** `play(uris)`: returns without any call unless both a device id and a
      token are present; otherwise issues one PUT carrying `uris` unchanged.
      The response (non-OK or thrown) is only logged by the source, so the
      binding is the same whatever it is: `play` never fails. Readiness is
      not consulted. */
  function Play(b: Binding, uris: seq<string>): (r: Binding)
    ensures !Truthy(b.deviceId) || !Truthy(b.token) <==> r == b
    ensures Truthy(b.deviceId) && Truthy(b.token) ==>
      r.log == b.log + [PlayRequest(b.deviceId.value, b.token.value, uris)]
    ensures r.player == b.player && r.deviceId == b.deviceId && r.isReady == b.isReady
  {
    if Truthy(b.deviceId) && Truthy(b.token) then
      b.(log := b.log + [PlayRequest(b.deviceId.value, b.token.value, uris)])
    else b
  }

  /** `player?.method()`: a no-op without a player, one delegation otherwise. */
  function Delegate(b: Binding, c: Command): (r: Binding)
    requires c in {Pause, Resume, NextTrack, PreviousTrack}
    ensures !b.player ==> r == b
    ensures b.player ==> r.log == b.log + [c]
    ensures r.player == b.player && r.deviceId == b.deviceId && r.isReady == b.isReady && r.token == b.token
  {
    if b.player then b.(log := b.log + [c]) else b
  }

  function DoPause(b: Binding): Binding { Delegate(b, Pause) }
  function DoResume(b: Binding): Binding { Delegate(b, Resume) }
  function DoNextTrack(b: Binding): Binding { Delegate(b, NextTrack) }
  function DoPreviousTrack(b: Binding): Binding { Delegate(b, PreviousTrack) }

  /** A `not_ready` event does not stop `play`: the device id survives it, so
      a PUT is still issued although the binding is no longer ready. */
  lemma PlayAfterNotReady(token: string, deviceId: string, uris: seq<string>)
    requires token != "" && deviceId != ""
    ensures var b := OnNotReady(OnReady(OnSdkReady(Mount(Some(token))), deviceId));
            !b.isReady && Play(b, uris).log == b.log + [PlayRequest(deviceId, token, uris)]
  {
  }

  /* ---------------------------------------------------------------------------
     Traces
     ------------------------------------------------------------------------- */

  /** What can happen to a mounted binding: the SDK's callbacks and the
      component's calls. */
  datatype HookEvent =
    | SdkReady
    | DeviceReady(deviceId: string)
    | DeviceNotReady
    | PlayUris(uris: seq<string>)
    | PauseCall
    | ResumeCall
    | NextCall
    | PreviousCall

  function Apply(b: Binding, e: HookEvent): Binding {
    match e
    case SdkReady => OnSdkReady(b)
    case DeviceReady(id) => OnReady(b, id)
    case DeviceNotReady => OnNotReady(b)
    case PlayUris(uris) => Play(b, uris)
    case PauseCall => DoPause(b)
    case ResumeCall => DoResume(b)
    case NextCall => DoNextTrack(b)
    case PreviousCall => DoPreviousTrack(b)
  }

  function Replay(b: Binding, events: seq<HookEvent>): Binding
    decreases |events|
  {
    if |events| == 0 then b else Replay(Apply(b, events[0]), events[1..])
  }

  /** Every play request of a log went out with the hook's token and a device id. */
  predicate RequestsCarry(log: seq<Command>, token: Option<string>) {
    forall i :: 0 <= i < |log| && log[i].PlayRequest? ==>
      Truthy(token) && log[i].token == token.value && log[i].deviceId != ""
  }

  /** Whatever happens, a play request carries the mount-time token and a
      non-empty device id: the guard of `play` is never bypassed. */
  lemma {:induction false} ReplayKeepsCredentials(b: Binding, events: seq<HookEvent>)
    requires RequestsCarry(b.log, b.token)
    ensures Replay(b, events).token == b.token
    ensures RequestsCarry(Replay(b, events).log, b.token)
    decreases |events|
  {
    if |events| > 0 {
      var next := Apply(b, events[0]);
      assert next.log[..|b.log|] == b.log;
      ReplayKeepsCredentials(next, events[1..]);
    }
  }

  /** Without a token no player is ever created and no command ever leaves
      the page, whatever the SDK reports and the component calls. */
  lemma {:induction false} NoTokenNoPlayer(token: Option<string>, events: seq<HookEvent>)
    requires !Truthy(token)
    ensures !Replay(Mount(token), events).player && Replay(Mount(token), events).log == []
  {
    ReplayIdle(Mount(token), events);
  }

  lemma {:induction false} ReplayIdle(b: Binding, events: seq<HookEvent>)
    requires !Truthy(b.token) && !b.player && b.log == []
    ensures Replay(b, events) == b
    decreases |events|
  {
    if |events| > 0 {
      ReplayIdle(Apply(b, events[0]), events[1..]);
    }
  }

  /** From a mount, every play request in the log carries that token and a device id. */
  lemma MountedRequestsCarryToken(token: Option<string>, events: seq<HookEvent>)
    ensures RequestsCarry(Replay(Mount(token), events).log, token)
  {
    ReplayKeepsCredentials(Mount(token), events);
  }
}

=== FILE: spotify_search.dfy ===
/** Track search: the selection of `searchSpotifyTrack` over whatever the
    search endpoint answers, and the sequential per-song search of
    `searchSpotifyTracksForSetlist` with its progress reports and pauses. */
module SpotifySearch {
  import opened Wrappers

  /** The fields of a search hit the callers read. */
  datatype Track = Track(uri: string, durationMs: int)

  /** What one search request produced: a non-OK status, an OK body with its
      `tracks.items`, or a thrown error (network failure, unparsable body). */
  datatype SearchResponse = SearchNotOk(status: int) | SearchOk(items: seq<Track>) | SearchThrew

  /** The search endpoint, as the answer it gives to each query string. */
  type SearchApi = string -> SearchResponse

  /** `searchSpotifyTrack`: the first item of an OK answer; null for an empty
      list, a non-OK status or a thrown error. */
  function SearchTrack(api: SearchApi, query: string): (r: Option<Track>)
    ensures r.Some? <==> api(query).SearchOk? && |api(query).items| > 0
    ensures r.Some? ==> r.value == api(query).items[0]
  {
    match api(query)
    case SearchOk(items) => if |items| > 0 then Some(items[0]) else None
    case _ => None
  }

  /** An entry of the setlist to look up. */
  datatype SongQuery = SongQuery(name: string, artistName: string)

  /** One result of the setlist search: the URI is null when nothing (or a
      track with an empty URI) was found. */
  datatype SongMatch = SongMatch(name: string, uri: Option<string>, durationMs: int)

  const DefaultDurationMs: int := 180000

  function Query(song: SongQuery): string {
    "track:" + song.name + " artist:" + song.artistName
  }

  /** The result entry for one song given what its search returned. */
  function ToMatch(song: SongQuery, found: Option<Track>): (m: SongMatch)
    ensures m.name == song.name
    ensures m.uri.Some? <==> found.Some? && found.value.uri != ""
    ensures m.uri.Some? ==> m.uri.value == found.value.uri
    // `duration_ms || 180000`: no track, or a zero duration, gives the default
    ensures found.None? ==> m.durationMs == DefaultDurationMs
    ensures found.Some? ==> m.durationMs == if found.value.durationMs == 0 then DefaultDurationMs else found.value.durationMs
  {
    SongMatch(
      song.name,
      if found.Some? && found.value.uri != "" then Some(found.value.uri) else None,
      if found.Some? && found.value.durationMs != 0 then found.value.durationMs else DefaultDurationMs)
  }

  /** The reference answer for a whole setlist: entry `i` is the match of song `i`. */
  function SearchSetlist(api: SearchApi, songs: seq<SongQuery>): (r: seq<SongMatch>)
    ensures |r| == |songs|
    ensures forall i :: 0 <= i < |songs| ==> r[i] == ToMatch(songs[i], SearchTrack(api, Query(songs[i])))
  {
    seq(|songs|, i requires 0 <= i < |songs| => ToMatch(songs[i], SearchTrack(api, Query(songs[i]))))
  }

  /** The observable effects of the setlist search, in order. */
  datatype Effect = Progress(current: int, total: int) | Request(query: string) | Pause

  /** `searchSpotifyTracksForSetlist`: for each song, a progress report
      `(i + 1, n)`, then its search; a pause follows every song but the last. */
  method SearchTracksForSetlist(api: SearchApi, songs: seq<SongQuery>) returns (results: seq<SongMatch>, effects: seq<Effect>)
    ensures results == SearchSetlist(api, songs)
    ensures forall i :: 0 <= i < |songs| ==> results[i].name == songs[i].name
    ensures |effects| == if |songs| == 0 then 0 else 3 * |songs| - 1
    ensures forall i :: 0 <= i < |songs| ==>
      && effects[3 * i] == Progress(i + 1, |songs|)
      && effects[3 * i + 1] == Request(Query(songs[i]))
      && (i < |songs| - 1 ==> effects[3 * i + 2] == Pause)
    ensures |songs| > 0 ==> CountPauses(effects) == |songs| - 1
  {
    var n := |songs|;
    results := [];
    effects := [];
    var i := 0;
    while i < n
      invariant 0 <= i <= n
      invariant results == SearchSetlist(api, songs[..i])
      invariant |effects| == if i == n && n > 0 then 3 * i - 1 else 3 * i
      invariant forall j :: 0 <= j < i ==>
        && effects[3 * j] == Progress(j + 1, n)
        && effects[3 * j + 1] == Request(Query(songs[j]))
        && (j < n - 1 ==> effects[3 * j + 2] == Pause)
    {
      var song := songs[i];
      effects := effects + [Progress(i + 1, n)];
      var query := Query(song);
      var track := SearchTrack(api, query);
      effects := effects + [Request(query)];
      results := results + [ToMatch(song, track)];
      if i < n - 1 {
        effects := effects + [Pause];
      }
      i := i + 1;
    }
    assert songs[..n] == songs;
    if n > 0 {
      PausesBetweenSongs(effects, n);
    }
  }

  /** The number of pauses in an effect log. */
  function CountPauses(effects: seq<Effect>): (k: nat)
    ensures k <= |effects|
    decreases |effects|
  {
    if |effects| == 0 then 0 else (if effects[0].Pause? then 1 else 0) + CountPauses(effects[1..])
  }

  lemma {:induction false} CountPausesAppend(a: seq<Effect>, b: seq<Effect>)
    ensures CountPauses(a + b) == CountPauses(a) + CountPauses(b)
    decreases |a|
  {
    if |a| == 0 {
      assert a + b == b;
    } else {
      assert (a + b)[1..] == a[1..] + b;
      CountPausesAppend(a[1..], b);
    }
  }

  /** Songs laid out as progress, request and (between songs) a pause give
      exactly `n - 1` pauses: none before the first song or after the last. */
  lemma {:induction false} PausesBetweenSongs(effects: seq<Effect>, n: nat)
    requires n > 0 && |effects| == 3 * n - 1
    requires forall i :: 0 <= i < n ==>
      && effects[3 * i].Progress? && effects[3 * i + 1].Request?
      && (i < n - 1 ==> effects[3 * i + 2] == Pause)
    ensures CountPauses(effects) == n - 1
    decreases n
  {
    var first := 0;
    assert effects[3 * first].Progress? && effects[3 * first + 1].Request?;
    if n > 1 {
      assert effects[3 * first + 2] == Pause;
      var head := effects[..3];
      var tail := effects[3..];
      assert effects == head + tail;
      CountPausesAppend(head, tail);
      assert head == [effects[0], effects[1], Pause];
      assert head[1..] == [effects[1], Pause] && head[1..][1..] == [Pause] && [Pause][1..] == [];
      assert CountPauses([Pause]) == 1;
      assert CountPauses(head[1..]) == 1;
      assert CountPauses(head) == 1;
      forall i | 0 <= i < n - 1
        ensures tail[3 * i].Progress? && tail[3 * i + 1].Request?
        ensures i < n - 2 ==> tail[3 * i + 2] == Pause
      {
        assert tail[3 * i] == effects[3 * (i + 1)];
        assert tail[3 * i + 1] == effects[3 * (i + 1) + 1];
        if i < n - 2 {
          assert tail[3 * i + 2] == effects[3 * (i + 1) + 2];
        }
      }
      PausesBetweenSongs(tail, n - 1);
    } else {
      assert effects[1..] == [effects[1]] && effects[1..][1..] == [];
    }
  }
}

=== FILE: text.dfy ===
/** String helpers the application gets from JavaScript's standard library:
    decimal rendering of counters, `split`, `trim`, prefixes and the
    lower-case-and-dash slug used for concert ids. */
module Text {

  predicate IsDigit(c: char) {
    '0' <= c <= '9'
  }

  predicate StartsWith(s: string, prefix: string) {
    |prefix| <= |s| && s[..|prefix|] == prefix
  }

  /* ---------------------------------------------------------------------------
     Decimal rendering of a natural number (template literals `${n}`)
     ------------------------------------------------------------------------- */

  function DigitChar(d: nat): (c: char)
    requires d < 10
    ensures IsDigit(c)
  {
    (('0' as int) + d) as char
  }

  function DigitValue(c: char): (d: nat)
    requires IsDigit(c)
    ensures d < 10
  {
    (c as int) - ('0' as int)
  }

  /** `${n}` for a non-negative integer: shortest decimal form, no sign. */
  function NatToString(n: nat): (s: string)
    ensures |s| >= 1
    ensures forall i :: 0 <= i < |s| ==> IsDigit(s[i])
    ensures |s| > 1 ==> s[0] != '0'
    decreases n
  {
    if n < 10 then [DigitChar(n)] else NatToString(n / 10) + [DigitChar(n % 10)]
  }

  predicate AllDigits(s: string) {
    forall i :: 0 <= i < |s| ==> IsDigit(s[i])
  }

  /** Reads a string of decimal digits back as a number (the reference inverse of NatToString). */
  function ParseDigits(s: string): nat
    requires AllDigits(s)
    decreases |s|
  {
    if |s| == 0 then 0 else ParseDigits(s[..|s| - 1]) * 10 + DigitValue(s[|s| - 1])
  }

  lemma {:induction false} ParseNatToString(n: nat)
    ensures ParseDigits(NatToString(n)) == n
    decreases n
  {
    if n >= 10 {
      var s := NatToString(n);
      var p := NatToString(n / 10);
      assert s == p + [DigitChar(n % 10)];
      assert s[..|s| - 1] == p;
      ParseNatToString(n / 10);
    }
  }

  /** Distinct numbers render to distinct strings, so renumbered ids never collide. */
  lemma NatToStringInjective(a: nat, b: nat)
    ensures NatToString(a) == NatToString(b) ==> a == b
  {
    ParseNatToString(a);
    ParseNatToString(b);
  }

  /* ---------------------------------------------------------------------------
     `String.prototype.split` with a one-character separator
     ------------------------------------------------------------------------- */

  /** `s.split(sep)`: the maximal separator-free pieces, empty ones included. */
  function Split(s: string, sep: char): (parts: seq<string>)
    ensures |parts| >= 1
    ensures forall i :: 0 <= i < |parts| ==> sep !in parts[i]
    ensures |parts| == 1 <==> sep !in s
    decreases |s|
  {
    if |s| == 0 then [""]
    else
      var rest := Split(s[1..], sep);
      if s[0] == sep then [""] + rest
      else [[s[0]] + rest[0]] + rest[1..]
  }

  /** `parts.join(sep)`: the reference inverse of Split. */
  function Join(parts: seq<string>, sep: char): string
    requires |parts| >= 1
    decreases |parts|
  {
    if |parts| == 1 then parts[0] else parts[0] + [sep] + Join(parts[1..], sep)
  }

  lemma {:induction false} JoinSplit(s: string, sep: char)
    ensures Join(Split(s, sep), sep) == s
    decreases |s|
  {
    if |s| > 0 {
      var rest := Split(s[1..], sep);
      JoinSplit(s[1..], sep);
      if s[0] == sep {
        assert Split(s, sep) == [""] + rest;
        assert ([""] + rest)[1..] == rest;
        assert s == [s[0]] + s[1..];
      } else {
        var parts := Split(s, sep);
        assert parts == [[s[0]] + rest[0]] + rest[1..];
        if |rest| == 1 {
          assert Join(parts, sep) == [s[0]] + rest[0];
          assert s == [s[0]] + s[1..];
        } else {
          assert parts[1..] == rest[1..];
          assert Join(rest, sep) == rest[0] + [sep] + Join(rest[1..], sep);
          assert s == [s[0]] + s[1..];
        }
      }
    }
  }

  /** A string without the separator splits into itself alone. */
  lemma SplitNoSeparator(s: string, sep: char)
    requires sep !in s
    ensures Split(s, sep) == [s]
  {
    JoinSplit(s, sep);
  }

  /** A separator-free prefix followed by the separator becomes the first piece. */
  lemma {:induction false} SplitAfterPiece(a: string, sep: char, t: string)
    requires sep !in a
    ensures Split(a + [sep] + t, sep) == [a] + Split(t, sep)
    decreases |a|
  {
    var s := a + [sep] + t;
    if |a| == 0 {
      assert s[1..] == t;
    } else {
      assert s[1..] == a[1..] + [sep] + t;
      SplitAfterPiece(a[1..], sep, t);
      assert [a[0]] + a[1..] == a;
    }
  }

  /* ---------------------------------------------------------------------------
     `String.prototype.trim`
     ------------------------------------------------------------------------- */

  /** The WhiteSpace and LineTerminator code points `trim` removes
      (section 22.1.3.32 of ECMA-262 referring to sections 12.2 and 12.3). */
  predicate IsJsWhitespace(c: char) {
    var u := c as int;
    u == 0x09 || u == 0x0A || u == 0x0B || u == 0x0C || u == 0x0D || u == 0x20
    || u == 0xA0 || u == 0x1680 || (0x2000 <= u <= 0x200A)
    || u == 0x2028 || u == 0x2029 || u == 0x202F || u == 0x205F || u == 0x3000 || u == 0xFEFF
  }

  function TrimStart(s: string): (r: string)
    ensures |r| <= |s|
    ensures r == s[|s| - |r|..]
    ensures |r| > 0 ==> !IsJsWhitespace(r[0])
    ensures forall i :: 0 <= i < |s| - |r| ==> IsJsWhitespace(s[i])
    decreases |s|
  {
    if |s| > 0 && IsJsWhitespace(s[0]) then TrimStart(s[1..]) else s
  }

  function TrimEnd(s: string): (r: string)
    ensures |r| <= |s|
    ensures r == s[..|r|]
    ensures |r| > 0 ==> !IsJsWhitespace(r[|r| - 1])
    ensures forall i :: |r| <= i < |s| ==> IsJsWhitespace(s[i])
    decreases |s|
  {
    if |s| > 0 && IsJsWhitespace(s[|s| - 1]) then TrimEnd(s[..|s| - 1]) else s
  }

  function Trim(s: string): string {
    TrimEnd(TrimStart(s))
  }

  /** `s.trim().length > 0` exactly when `s` holds a character `trim` keeps. */
  lemma TrimNonEmpty(s: string)
    ensures |Trim(s)| > 0 <==> exists i :: 0 <= i < |s| && !IsJsWhitespace(s[i])
  {
    var t := TrimStart(s);
    if |Trim(s)| > 0 {
      var k := |s| - |t|;
      assert s[k] == t[0];
    } else {
      assert |t| == 0;
    }
  }

  /* ---------------------------------------------------------------------------
     Slug: `x.toLowerCase().replace(/[^a-z0-9]/g, '-')`
     ------------------------------------------------------------------------- */

  predicate IsSlugChar(c: char) {
    ('a' <= c <= 'z') || ('0' <= c <= '9') || c == '-'
  }

  /** `toLowerCase` on one code point, restricted to the results that can
      survive the `[^a-z0-9]` replacement: ASCII capitals, the Kelvin sign
      (U+212A, lower-cases to 'k') and the capital I with dot (U+0130,
      lower-cases to 'i' followed by a combining dot). */
  function LowerForSlug(c: char): string {
    if 'A' <= c <= 'Z' then [((c as int) + 32) as char]
    else if c as int == 0x212A then "k"
    else if c as int == 0x0130 then ['i', 0x0307 as char]
    else [c]
  }

  /** The slug of one code point. JavaScript strings are UTF-16, and a regular
      expression without the `u` flag matches each code unit, so a code point
      above U+FFFF becomes two dashes. */
  function SlugOf(c: char): (r: string)
    ensures forall i :: 0 <= i < |r| ==> IsSlugChar(r[i])
    ensures 1 <= |r| <= 2
    ensures c as int < 0x10000 && c as int != 0x0130 ==> |r| == 1
  {
    if c as int >= 0x10000 then "--"
    else
      var l := LowerForSlug(c);
      seq(|l|, i requires 0 <= i < |l| => if ('a' <= l[i] <= 'z') || ('0' <= l[i] <= '9') then l[i] else '-')
  }

  function Slug(s: string): (r: string)
    ensures forall i :: 0 <= i < |r| ==> IsSlugChar(r[i])
    decreases |s|
  {
    if |s| == 0 then "" else SlugOf(s[0]) + Slug(s[1..])
  }

  predicate IsAscii(s: string) {
    forall i :: 0 <= i < |s| ==> (s[i] as int) < 128
  }

  /** On ASCII input the slug replaces character for character: lower-case
      letters and digits survive (capitals lowered), everything else is '-'. */
  lemma {:induction false} SlugAscii(s: string)
    requires IsAscii(s)
    ensures |Slug(s)| == |s|
    ensures forall i :: 0 <= i < |s| ==>
      Slug(s)[i] == (if 'A' <= s[i] <= 'Z' then ((s[i] as int) + 32) as char
                     else if ('a' <= s[i] <= 'z') || ('0' <= s[i] <= '9') then s[i] else '-')
    decreases |s|
  {
    if |s| > 0 {
      SlugAscii(s[1..]);
      assert Slug(s) == SlugOf(s[0]) + Slug(s[1..]);
    }
  }

  /** Slugging a slug changes nothing. */
  lemma {:induction false} SlugIdempotent(s: string)
    ensures Slug(Slug(s)) == Slug(s)
  {
    SlugFixed(Slug(s));
  }

  lemma {:induction false} SlugFixed(s: string)
    requires forall i :: 0 <= i < |s| ==> IsSlugChar(s[i])
    ensures Slug(s) == s
    decreases |s|
  {
    if |s| > 0 {
      SlugFixed(s[1..]);
      assert SlugOf(s[0]) == [s[0]];
      assert s == [s[0]] + s[1..];
    }
  }
}

=== FILE: types.dfy ===
/** The application's two record types: a song of a setlist and a concert. */
module Types {
  import opened Wrappers

  /** A setlist entry. `spotifyUri` is the empty string while the song has
      not been resolved to a streaming-catalog track. */
  datatype Song = Song(id: string, title: string, spotifyUri: string, durationMs: int)

  datatype Concert = Concert(
    id: string,
    title: string,
    artist: string,
    venue: string,
    date: string,
    location: string,
    attendance: Option<int>,
    description: string,
    posterImage: string,
    venueImage: string,
    setlist: seq<Song>)

  /** The playable identifiers of a setlist, in setlist order (`setlist.map(s => s.spotifyUri)`). */
  function Uris(setlist: seq<Song>): (uris: seq<string>)
    ensures |uris| == |setlist|
    ensures forall i :: 0 <= i < |setlist| ==> uris[i] == setlist[i].spotifyUri
  {
    seq(|setlist|, i requires 0 <= i < |setlist| => setlist[i].spotifyUri)
  }
}

=== FILE: wrappers.dfy ===
/** The JavaScript `T | null` of the application, as an explicit Some/None. */
module Wrappers {

  datatype Option<+T> = None | Some(value: T)

  /** A nullable string that is also non-empty: the source's `if (s)` on a `string | null`. */
  predicate Truthy(s: Option<string>) {
    s.Some? && s.value != ""
  }
}
